=== FILE: README.md ===
# Unified Health Service front end: form validation, sign-in and navigation logic

Unified Health Service is a Next.js front end where patients, doctors and hospitals sign up, sign
in and manage appointments against a REST backend. This project models the decision logic of those
screens as pure Dafny functions over immutable state:

- The three sign-up forms (doctor, hospital, patient). Each `validateForm` runs its checks in a
  fixed order and reports the first message that fails. The `handleSignUp` that follows posts the
  form only when validation reports nothing.
- The regular expressions behind the email, password, phone and postal-code checks. Each is
  written twice, once as an executable scan and once as a literal reading of the expression, and
  proved equivalent. The age and experience checks use JavaScript's `Number()` coercion.
- The hospital appointment screen: the local status update after the status PUT, the statuses
  the select offers, and the colour of each status.
- The patient OTP submission and the doctor sign-in. Each has a guard, a request, and a reply
  that either stores a token or shows a message.
- The hospital search box: query capitalisation, the condition that schedules a search, and the
  state changes of `searchHospitals`.
- The patient and doctor navigation bars: avatar initials, the highlighted item, the profile
  fetch on mount, and logout.

Things the browser or the backend decides become parameters:

- the reply to each request (`SignupReply`, `AuthReply`, `PutOutcome`, `SearchReply`,
  `ProfileReply`)
- the current pathname
- the message already on screen
- the key/value token store, modelled as a `map`

Modules follow the screens. `Common` and `Text` hold shared shapes and JavaScript string
semantics: `\s`, `\d`, `trim` and `toUpperCase`. `Text` also holds the model's own
first-occurrence search, used by the email scan and the decimal reader. `JsNumber` models
`Number()`, including the overflow to infinity.
`Patterns` holds the four regular expressions. There is one module per screen or component.
`SignupOrders` compares the three check orders.

## Model

| member | source | states |
|---|---|---|
| Text.Trim | components/searchbar.tsx:14 | `trim()` strips JavaScript whitespace at both ends. The stripped string is no longer than the input. It is empty exactly when the input is all whitespace, and otherwise neither starts nor ends with whitespace. |
| Text.TrimRemovesOnlyEnds | components/searchbar.tsx:14 | Trimming removes whitespace at the two ends and nothing else: the result is a slice of the input, and everything before and after that slice is whitespace. |
| Text.TrimUnpadded | app/doctor/signup/page.tsx:146 | `Number()` strips whitespace before reading digits; a string that neither starts nor ends with whitespace trims to itself. |
| JsNumber.FromMagnitude | app/doctor/signup/page.tsx:146 | An integer-valued literal is finite exactly below 2^1024 - 2^970, where the double rounding of `Number()` reaches infinity, and keeps its value there. |
| JsNumber.ToNumber | app/doctor/signup/page.tsx:146 | `Number(s)`: a blank string is 0. Every integer result lies strictly inside the double range. |
| JsNumber.UnsignedLiteral | app/doctor/signup/page.tsx:146 | A literal that starts and ends with a digit is read with neither trimming nor a sign. |
| JsNumber.IsValidAge | app/doctor/signup/page.tsx:146-150 | The age check `isNaN(n) \|\| n <= 0 \|\| !Number.isInteger(n)` rejects. Every valid age is also valid as experience. |
| JsNumber.IsValidExperience | app/doctor/signup/page.tsx:153-157 | The experience check `isNaN(n) \|\| n < 0 \|\| !Number.isInteger(n)` rejects. JsNumber.DigitStringAgeAndExperience characterises it on digit strings. |
| Text.IndexOf | app/hospital/signup/page.tsx:75-76 | The model's own first-occurrence search, which the email scan uses to find the '@'. The position found holds the character, and no earlier position does. `None` means the character does not occur. |
| Text.ToUpperAscii | components/searchbar.tsx:23 | A lowercase ASCII letter becomes the uppercase letter 32 code points below it. Every other character is unchanged. |
| Common.OrElse | app/doctor/signup/page.tsx:195-196 | `message \|\| fallback`: a present, nonempty message wins, and otherwise the fallback is used. The result is never empty when the fallback is not. |
| Common.StoredText | app/patient/otp/page.tsx:33 | `setItem` stores a present token as given and a missing one as the text "undefined". So the stored text is empty only for an empty token. |
| JsNumber.DigitStringNumber | app/doctor/signup/page.tsx:146-150 | `Number` of a nonempty digit string is the integer those digits spell while that integer is below the double overflow bound 2^1024 - 2^970. From the bound on, it is infinity. |
| JsNumber.DecimalPositiveIffNonzeroDigit | app/doctor/signup/page.tsx:146-150 | A digit string spells a positive number exactly when one of its digits is not '0'. |
| JsNumber.DigitStringAgeAndExperience | app/doctor/signup/page.tsx:146-157 | On digit strings, the age check (`n <= 0` rejects) accepts exactly the strings that have a nonzero digit and stay below the overflow bound. The experience check (`n < 0` rejects) accepts exactly the strings below the bound. An infinite value fails `Number.isInteger` in both. |
| JsNumber.ZeroIsExperienceButNoAge | app/doctor/signup/page.tsx:146-157 | "0" and "00" are no age but are valid experience. "35" is an age. |
| JsNumber.BlankIsZero | app/patient/signup/page.tsx:42-46 | A blank age passes the emptiness check but coerces to 0, so it is rejected as an age and accepted as experience. |
| JsNumber.FractionIsNoInteger | app/patient/signup/page.tsx:42-46 | "2.5" is not an integer, so it is neither an age nor an experience. |
| JsNumber.TwoPointFive | app/patient/signup/page.tsx:42-46 | The unsigned reading of "2.5" is a non-integer. |
| JsNumber.ZeroFractionIsInteger | app/patient/signup/page.tsx:42-46 | "4.0" coerces to the integer 4, so it is a valid age. |
| JsNumber.FourPointZero | app/patient/signup/page.tsx:42-46 | The unsigned reading of "4.0" is the integer 4. |
| JsNumber.NegativeIsRejected | app/doctor/signup/page.tsx:146-157 | "-3" coerces to -3, so it fails both the age and the experience check. |
| Patterns.EmailCheckImpliesPattern | app/doctor/signup/page.tsx:124-129 | Every string the email scan accepts matches `^[^\s@]+@[^\s@]+\.[^\s@]+$` read literally. |
| Patterns.PatternCharacters | app/doctor/signup/page.tsx:124-129 | In a match of the email expression, every character except the single '@' is in `[^\s@]`. |
| Patterns.PatternImpliesEmailCheck | app/hospital/signup/page.tsx:75-80 | Every string matching the email expression passes the email scan. |
| Patterns.EmailCheckMatchesPattern | app/patient/signup/page.tsx:49-54 | The email scan and the email expression accept the same strings. |
| Patterns.IsValidEmail | app/patient/signup/page.tsx:49-54 | The scan form of the email `.test`. A valid email has at least five characters; Patterns.EmailCheckMatchesPattern proves it equal to the expression. |
| Patterns.CountZero | app/doctor/signup/page.tsx:124-129 | A character counted zero times occurs nowhere, and conversely. |
| Patterns.CountOne | app/doctor/signup/page.tsx:124-129 | A character seen at `i` is counted once exactly when it occurs at no other position (the single '@' of an email). |
| Patterns.RunSlice | app/doctor/signup/page.tsx:124-129 | A slice is one `[^\s@]+` run exactly when all its characters are in the class. |
| Patterns.DottedDomainAccepted | app/hospital/signup/page.tsx:75-76 | "a@b.co" is a valid email. |
| Patterns.LeadingDotRejected | app/hospital/signup/page.tsx:75-76 | "a@.co" is rejected: the domain may not start with its dot. |
| Patterns.TrailingDotRejected | app/hospital/signup/page.tsx:75-76 | "a@bco." is rejected: the domain may not end with its dot. |
| Patterns.ScanPasswordFlags | app/doctor/signup/page.tsx:160-169 | Each flag of the one-pass password scan holds exactly when the string has the property the flag names: all characters allowed, an uppercase letter, a digit, a special character. |
| Patterns.PasswordCheckMatchesPattern | app/hospital/signup/page.tsx:83-92 | The password check accepts exactly the strings matching `^(?=.*[A-Z])(?=.*\d)(?=.*[@$!%*?&])[A-Za-z\d@$!%*?&]{8,}$` read literally. |
| Patterns.IsStrongPassword | app/doctor/signup/page.tsx:160-169 | The scan form of the password `.test`. A strong password has at least eight characters and no whitespace; Patterns.PasswordCheckMatchesPattern proves it equal to the expression. |
| Patterns.UppercaseOnlyPasswordIsStrong | app/hospital/signup/page.tsx:83-86 | No lowercase letter is required: "PASSWORD1!" is strong. |
| Patterns.PasswordWithSpaceIsWeak | app/hospital/signup/page.tsx:83-86 | A space is outside the allowed class: "Pass word1!" is weak. |
| Patterns.PasswordWithoutSpecialIsWeak | app/doctor/signup/page.tsx:160-169 | However long it is, a password without one of `@$!%*?&` is weak. |
| Patterns.DigitChecks | app/hospital/signup/page.tsx:95-106 | Every valid phone number is a valid postal code. A postal code is a phone number exactly when it has ten digits. A non-ASCII-digit character fails both checks. |
| Patterns.IsValidPhoneNumber | app/patient/signup/page.tsx:57-64 | `^\d{10}$`: exactly ten ASCII digits. Every valid phone number is also a valid postal code. |
| Patterns.IsValidPostalCode | app/hospital/signup/page.tsx:102-106 | `^\d{4,10}$`: four to ten ASCII digits. Patterns.DigitChecks relates it to the phone check. |
| DoctorSignup.HasEmptyFieldIff | app/doctor/signup/page.tsx:99-121 | The list-based emptiness check holds exactly when one of the sixteen fields is the empty string. |
| DoctorSignup.ValidateForm | app/doctor/signup/page.tsx:79-178 | One iff per message. Each message is returned exactly when every earlier check passes and its own fails, in the order empty, email, contact number, postal code, age, experience, password strength, confirmation. `None` is returned exactly when all checks pass. |
| DoctorSignup.HandleSignUp | app/doctor/signup/page.tsx:180-198 | The form is posted exactly when validation reports nothing, and the posted form is the form itself. A validation message becomes the error. After posting, success navigates to "/doctor/signin"; a refusal shows the server's message, or "Signup failed. Please try again." when that message is missing or empty. |
| DoctorSignup.EmptyFieldBlocksRequest | app/doctor/signup/page.tsx:119-121 | A form with an empty field is never sent and shows "All fields are required.". |
| DoctorSignup.BlankNameCountsAsPresent | app/doctor/signup/page.tsx:99-116 | Emptiness is falsiness. A first name of one space gets the same verdict as any other nonempty name, while an empty one gets "All fields are required.". |
| DoctorSignup.WeakPasswordBeforeMismatch | app/doctor/signup/page.tsx:160-175 | A weak password hides a confirmation mismatch. |
| DoctorSignup.ZeroAgeRejectedZeroExperienceAccepted | app/doctor/signup/page.tsx:146-157 | With every other field valid, age "0" gives "Invalid age.", while age "35" with experience "0" passes. |
| HospitalSignup.HasEmptyFieldIff | app/hospital/signup/page.tsx:56-67 | The emptiness check holds exactly when one of the ten text fields is empty. |
| HospitalSignup.ValidateForm | app/hospital/signup/page.tsx:42-115 | One iff per message, in the order empty, email, password strength, contact number, postal code, missing document. `None` is returned exactly when every check passes and a document is chosen. |
| HospitalSignup.LookupAt | app/hospital/signup/page.tsx:124-130 | In a body whose keys are distinct, looking up any part's key finds that part. |
| HospitalSignup.LookupAbsent | app/hospital/signup/page.tsx:128-130 | A key that no part carries finds nothing. |
| HospitalSignup.BuildPayload | app/hospital/signup/page.tsx:124-130 | The body has ten text parts, plus the file as an eleventh exactly when one was chosen. Only that last part is a file, and no key repeats. |
| HospitalSignup.ReadPayload | app/hospital/signup/page.tsx:124-130 | How a server reads the body back: each text field by its key, and the file under "registrationDocument". HospitalSignup.PayloadRoundTrip proves it inverts BuildPayload. |
| HospitalSignup.PayloadKeysDistinct | app/hospital/signup/page.tsx:124-130 | The multipart body built from the form never repeats a key. |
| HospitalSignup.PayloadTextFields | app/hospital/signup/page.tsx:125-127 | Each of the ten fields can be read back from the body under its own name. |
| HospitalSignup.PayloadDocument | app/hospital/signup/page.tsx:128-130 | "registrationDocument" holds the file exactly when one was chosen. |
| HospitalSignup.PayloadRoundTrip | app/hospital/signup/page.tsx:124-130 | Reading the built body back gives the form and document that went in. The body has 10 parts, or 11 with the document. |
| HospitalSignup.HandleSignUp | app/hospital/signup/page.tsx:117-148 | A request is sent exactly when validation passes, and the request decodes back to the form and the document. A validation message becomes the error. The request is exactly the built payload. After posting, the screen navigates to "/hospital/signin" on success and nowhere on a refusal, and the shown error is left alone because a refusal only toasts. |
| HospitalSignup.MissingDocumentRejected | app/hospital/signup/page.tsx:109-112 | A form valid in every text field but without a document is not sent and shows the upload message. |
| PatientSignup.GenderChoicesMatchUnion | app/patient/signup/page.tsx:135-140 | The select offers four distinct values. A string is offered exactly when it is the string of a member of the `gender` union in types/patient.ts, and parsing round-trips. |
| PatientSignup.ValidateForm | app/patient/signup/page.tsx:27-67 | One iff per message, in the order empty, age, email, phone. `None` is returned exactly when all checks pass. |
| PatientSignup.HandleSignUp | app/patient/signup/page.tsx:69-102 | The six fields are posted exactly when validation passes. Success sets "Signup successful! Please check your email.", clears the error and navigates to "/patient/signin". A refusal sets the server's message or the generic one. |
| PatientSignup.AgeReportedBeforeEmail | app/patient/signup/page.tsx:42-54 | When both are bad, the age is reported rather than the email. |
| PatientSignup.ZeroAgeRejected | app/patient/signup/page.tsx:42-46 | Changing a valid form's age to "0" makes it fail with the age message. |
| SignupOrders.PhoneBeforePasswordOnlyForDoctors | app/hospital/signup/page.tsx:82-99 | With a weak password and a bad phone number, the doctor form reports the phone number and the hospital form reports the password. |
| SignupOrders.AgeBeforeEmailOnlyForPatients | app/patient/signup/page.tsx:41-54 | With a bad email and a bad age, the doctor form reports the email and the patient form reports the age. |
| AppointmentControl.SetStatus | app/hospital/appointmentcontrol/page.tsx:68-70 | The list keeps its length and order. Every appointment with the id gets the new status, and every other appointment is unchanged. |
| AppointmentControl.SetStatusKeepsIdentity | app/hospital/appointmentcontrol/page.tsx:68-70 | Ids, dates, times, doctors and hospitals stay in place. |
| AppointmentControl.SetStatusLastWins | app/hospital/appointmentcontrol/page.tsx:68-70 | Two updates of one id equal the second update alone. |
| AppointmentControl.SetStatusIdempotent | app/hospital/appointmentcontrol/page.tsx:68-70 | Repeating an update changes nothing. |
| AppointmentControl.SetStatusCommutes | app/hospital/appointmentcontrol/page.tsx:68-70 | Updates of two different ids commute. |
| AppointmentControl.SetStatusUnknownId | app/hospital/appointmentcontrol/page.tsx:68-70 | An id the list does not hold leaves the list unchanged. |
| AppointmentControl.UpdateStatus | app/hospital/appointmentcontrol/page.tsx:57-74 | The list is updated whenever the PUT resolves, whatever its HTTP status. Only a thrown request leaves the list as it was. |
| AppointmentControl.ServerErrorStillUpdates | app/hospital/appointmentcontrol/page.tsx:57-74 | A PUT answered with 500 still changes the shown status. |
| AppointmentControl.StatusColour | app/hospital/appointmentcontrol/page.tsx:122-128 | Yellow exactly for "pending", green exactly for "confirmed", red exactly for every other status. |
| AppointmentControl.SelectableStatusColours | app/hospital/appointmentcontrol/page.tsx:142-145 | Of the four selectable statuses, "changed" and "cancelled" show red. An appointment just set to a selectable status shows that status's colour. |
| PatientOtp.CapInput | app/patient/otp/page.tsx:66 | The field keeps exactly the first six characters typed, or all of them when fewer were typed. |
| PatientOtp.RejectsOtp | app/patient/otp/page.tsx:17-20 | `!otp \|\| otp.length < 6` rejects exactly the OTPs shorter than six; the empty one is among them. |
| PatientOtp.HandleSubmit | app/patient/otp/page.tsx:16-42 | A request is sent exactly when the OTP has at least six characters. Without one, the error is "Please enter a valid 6-digit OTP.". An error reply shows its message or "OTP verification failed.". Any other reply stores its token under "patientToken", sets the success message, clears the error and navigates to "/patient/dashboard", and leaves the typed OTP as it was. A thrown request shows the generic failure. Each case fixes the whole screen. |
| PatientOtp.StorageChangesOnlyOnSuccess | app/patient/otp/page.tsx:33-37 | No key other than "patientToken" is touched. The store changes only on a non-error reply to a sent request. |
| PatientOtp.CappedOtpSentHasSixCharacters | app/patient/otp/page.tsx:17-20 | Behind the six-character cap, every OTP that is sent has exactly six characters. One is sent exactly when six or more were typed. |
| PatientOtp.LettersPassTheGuard | app/patient/otp/page.tsx:17-20 | The guard checks length only: "abcdef" is sent. |
| DoctorSignin.DashboardTarget | app/doctor/signin/page.tsx:33-34 | The target is "/doctor/dashboard?email=" followed by the email unchanged. |
| DoctorSignin.ShownMessage | app/doctor/signin/page.tsx:29-30 | The error line shows the server's message when there is one, and nothing otherwise. |
| DoctorSignin.HandleSignIn | app/doctor/signin/page.tsx:16-39 | Credentials are sent exactly when both are nonempty; otherwise "Please enter both email and password." is shown. An error reply shows the server's message. Any other reply stores the token under "doctorToken" and navigates to the dashboard. A thrown request shows the generic failure. |
| DoctorSignin.TokenStoredOnlyOnSuccess | app/doctor/signin/page.tsx:28-34 | From a store without "doctorToken", the token is present afterwards exactly on a non-error reply to a sent request. A navigation carries the email back. |
| SearchBar.Capitalize | components/searchbar.tsx:21-25 | The length is kept, the first character is upper-cased and the rest are unchanged. The length is kept only because the case mapping is the ASCII one (see Text.ToUpperAscii under Left out); JavaScript maps "ßx" to "SSx". |
| SearchBar.CapitalizeIdempotent | components/searchbar.tsx:21-25 | The empty query stays empty. Capitalising twice is capitalising once, so the effect settles after one re-run. |
| SearchBar.SchedulesSearch | components/searchbar.tsx:13-20 | A search is scheduled exactly when the query has a non-whitespace character. |
| SearchBar.CapitalizeKeepsSchedule | components/searchbar.tsx:13-25 | Capitalising never changes whether a search is scheduled. |
| SearchBar.BeginSearch | components/searchbar.tsx:27-30 | While the request is in flight, loading is on and the error is cleared. |
| SearchBar.SearchHospitals | components/searchbar.tsx:27-41 | Results replace the list, and an absent list becomes empty. A failure sets "Failed to fetch hospitals. Please try again." and keeps the old list. Loading always ends. |
| SearchBar.SearchForgetsEarlierError | components/searchbar.tsx:27-41 | The outcome depends only on the reply, not on an earlier error or loading flag. |
| NavBar.Initials | components/PatientNavBar.tsx:109-114 | Without a profile the result is the bar's fallback, "PA" for the patient bar and "DA" for the doctor bar (components/DoctorNavBar.tsx lines 101-106). With one, it is the first letter of each nonempty name, first name first, at most two characters. |
| NavBar.FirstChar | components/PatientNavBar.tsx:111-112 | The first character of a nonempty string, as a one-character prefix, and the empty string otherwise. This stands in for `charAt(0)`, which takes a UTF-16 unit (see Left out). |
| NavBar.Highlights | components/PatientNavBar.tsx:138 | There is one flag per item, and a flag is set exactly when the item's href is the pathname. |
| NavBar.AtMostOneHighlight | components/DoctorNavBar.tsx:124 | With distinct hrefs at most one item is highlighted, and one is highlighted exactly when the pathname is one of the hrefs. |
| NavBar.BarsHaveDistinctHrefs | components/PatientNavBar.tsx:80-101 | Neither bar repeats an href. |
| NavBar.FetchUserInfo | components/PatientNavBar.tsx:45-78 | Loading always ends. The profile is requested exactly when a token is stored. Without a token, person and store are kept, and only the doctor bar redirects. A body replaces the person. A 401 removes the role's token. |
| NavBar.NoTokenShortCircuit | components/DoctorNavBar.tsx:44-49 | Without tokens, the doctor bar redirects to "/doctor/signin" and the patient bar only stops loading. |
| NavBar.Logout | components/DoctorNavBar.tsx:95-98 | Only the role's token is removed and the route becomes the role's sign-in page. Every other key and every other part of the bar's state stay as they were. |
| NavBar.LogoutThenFetchRequestsNothing | components/PatientNavBar.tsx:103-106 | After logout, the next mount requests no profile. |
| Sessions.OtpTokenReachesPatientBar | app/patient/otp/page.tsx:33-34 | After a verified OTP, the patient bar mounted next requests the profile exactly when the reply's token is not the empty string. A missing token is stored as "undefined" and still counts. |
| Sessions.SigninTokenReachesDoctorBar | app/doctor/signin/page.tsx:33-34 | After a successful sign-in, the doctor bar mounted next requests the profile exactly when the reply's token is not the empty string. |
| Sessions.LogoutRemovesStoredToken | components/PatientNavBar.tsx:103-106 | The key the OTP screen stores is the key the patient bar's logout removes. |
| Sessions.LogoutRemovesSigninToken | components/DoctorNavBar.tsx:95-98 | The key a successful doctor sign-in stores is the key the doctor bar's logout removes. |

## Left out

- HTTP, toasts and React rendering. Each request's outcome is a parameter. The toast next to each validation message is not modelled, because it never changes state.
- The hospital refusal path: `handleSignUp` of the hospital form only toasts the server's message. The model leaves the shown error unchanged there.
- The 800 ms debounce timer and the race between overlapping searches. Timing is not modelled; only the condition under which a search is scheduled is.
- The search results list, `hospitalsearch.tsx`, `locationdisplay.tsx` and `ComingSoon.tsx`. They present data and make no decisions.
- The appointment fetch of the review screen (`fetchAppointments`) and the other dashboards and booking pages. They load and display backend data, and their request shapes are backend concerns.
- The patient navbar `person` state is fed from the `data` property of the reply body. The HTTP and JSON decoding of the profile are not modelled.
- JsNumber.ToNumber: exponent, hexadecimal, binary, octal and "Infinity" literals all become NotANumber. "Infinity" gets the same verdict either way. An age written as "1e1" or "0x10" is rejected by the model but accepted by the form.
- JsNumber.ToNumber: a literal with a decimal point is judged on its exact value, not on the double it rounds to. So "4.0000000000000001", which rounds to 4, is a valid age in the form but a non-integer in the model. So is any fraction whose whole part is 2^52 or more and below the overflow bound, such as "4503599627370496.5", which rounds to the integer 2^52. A fraction too small for a double, such as "0." followed by 330 zeros and a 1, rounds to 0: the form accepts it as experience and the model rejects it.
- JsNumber.DigitStringNumber: the integer below the overflow bound is the exact value the digits spell. `Number()` rounds integers beyond 2^53 to the nearest double. Both are positive integers, or both are 0, so no check changes its verdict.
- JsNumber.DigitStringAgeAndExperience: it covers digit strings only. For literals with a fraction, the rounding gap of JsNumber.ToNumber applies.
- Text.ToUpperAscii: JavaScript's `toUpperCase` maps every Unicode letter. The model upper-cases ASCII letters only and leaves other characters unchanged.
- PatientOtp.CapInput: `maxLength` counts UTF-16 code units. The model counts characters, which agree for text of the Basic Multilingual Plane.
- PatientOtp.HandleSubmit: `otp.length < 6` counts UTF-16 code units. The model counts characters, so "😀😀😀" (six units, three characters) is sent by the form and rejected by the model.
- PatientOtp.CappedOtpSentHasSixCharacters: "six or more typed" and "six sent" are counted in characters. The form counts UTF-16 code units, so outside the Basic Multilingual Plane the two differ as for PatientOtp.HandleSubmit.
- NavBar.Initials: `charAt(0)` takes the first UTF-16 code unit. For a name that starts outside the Basic Multilingual Plane, such as "😀b", the form shows a lone surrogate and the model shows the whole character.
- NavBar.FirstChar: stands in for `charAt(0)` but returns the first character, not the first UTF-16 code unit. For "😀b" it returns "😀" where JavaScript returns a lone surrogate.
- DoctorSignin.HandleSignIn: `setError(response.data.message)` with no message sets `undefined`, which renders like the empty string. The model stores "" in that case.

=== FILE: appointment_control.dfy ===
/**
  The hospital's appointment review screen
  (app/hospital/appointmentcontrol/page.tsx): the local status update that
  follows a status PUT, the statuses the select offers, and the colour in
  which a status is shown.
 */
module AppointmentControl {

  datatype DoctorSummary = DoctorSummary(firstName: string, lastName: string, specialization: string)

  datatype HospitalSummary = HospitalSummary(name: string, location: string)

  /** An appointment as the review list holds it; `id` is the backend's `_id`. */
  datatype Appointment = Appointment(
    id: string,
    date: string,
    time: string,
    status: string,
    doctor: DoctorSummary,
    hospital: HospitalSummary)

  /**
    The list after `prev.map(appt => appt._id === id ? {...appt, status} : appt)`:
    every appointment carrying the id gets the new status, every other one
    is kept as it was, and the list keeps its length and order.
   */
  function SetStatus(appointments: seq<Appointment>, id: string, status: string): (r: seq<Appointment>)
    ensures |r| == |appointments|
    ensures forall i :: 0 <= i < |r| && appointments[i].id == id ==> r[i] == appointments[i].(status := status)
    ensures forall i :: 0 <= i < |r| && appointments[i].id != id ==> r[i] == appointments[i]
    decreases |appointments|
  {
    if appointments == [] then []
    else
      var head := appointments[0];
      [if head.id == id then head.(status := status) else head] + SetStatus(appointments[1..], id, status)
  }

  /** The update changes statuses only: ids, dates, times and parties stay where they were. */
  lemma SetStatusKeepsIdentity(appointments: seq<Appointment>, id: string, status: string)
    ensures var r := SetStatus(appointments, id, status);
      forall i :: 0 <= i < |r| ==>
        && r[i].id == appointments[i].id && r[i].date == appointments[i].date
        && r[i].time == appointments[i].time && r[i].doctor == appointments[i].doctor
        && r[i].hospital == appointments[i].hospital
  {
  }

  /** Two updates of the same id: the second one wins. */
  lemma SetStatusLastWins(appointments: seq<Appointment>, id: string, first: string, second: string)
    ensures SetStatus(SetStatus(appointments, id, first), id, second) == SetStatus(appointments, id, second)
  {
  }

  /** Applying the same update twice is applying it once. */
  lemma SetStatusIdempotent(appointments: seq<Appointment>, id: string, status: string)
    ensures SetStatus(SetStatus(appointments, id, status), id, status) == SetStatus(appointments, id, status)
  {
    SetStatusLastWins(appointments, id, status, status);
  }

  /** Updates of two different ids commute. */
  lemma SetStatusCommutes(appointments: seq<Appointment>, id1: string, s1: string, id2: string, s2: string)
    requires id1 != id2
    ensures SetStatus(SetStatus(appointments, id1, s1), id2, s2) == SetStatus(SetStatus(appointments, id2, s2), id1, s1)
  {
  }

  /** An id the list does not hold leaves it unchanged. */
  lemma SetStatusUnknownId(appointments: seq<Appointment>, id: string, status: string)
    requires forall i :: 0 <= i < |appointments| ==> appointments[i].id != id
    ensures SetStatus(appointments, id, status) == appointments
  {
  }

  /** How the PUT of `updateStatus` ends: it resolved with some HTTP status, or `fetch` threw. */
  datatype PutOutcome = Resolved(httpStatus: int) | Threw

  /**
    `updateStatus`: the local list is updated whenever the PUT resolves,
    whatever HTTP status it resolved with; only a thrown error leaves the
    list as it was.
   */
  function UpdateStatus(appointments: seq<Appointment>, id: string, status: string, outcome: PutOutcome): (r: seq<Appointment>)
    ensures outcome.Resolved? ==> r == SetStatus(appointments, id, status)
    ensures outcome.Threw? ==> r == appointments
  {
    match outcome
    case Resolved(_) => SetStatus(appointments, id, status)
    case Threw => appointments
  }

  /** Even a PUT the server answers with 500 changes the shown status. */
  lemma ServerErrorStillUpdates(a: Appointment, status: string)
    ensures UpdateStatus([a], a.id, status, Resolved(500)) == [a.(status := status)]
  {
  }

  /** The values the status select offers, in the order it lists them. */
  const SelectableStatuses: seq<string> := ["pending", "confirmed", "changed", "cancelled"]

  datatype Colour = Yellow | Green | Red

  /** The colour of the status line: yellow for pending, green for confirmed, red for anything else. */
  function StatusColour(status: string): (c: Colour)
    ensures c == Yellow <==> status == "pending"
    ensures c == Green <==> status == "confirmed"
    ensures c == Red <==> status != "pending" && status != "confirmed"
  {
    if status == "pending" then Yellow
    else if status == "confirmed" then Green
    else Red
  }

  /**
    Of the four selectable statuses two are shown in red, and an appointment
    just updated to a selectable status is shown in that status's colour.
   */
  lemma SelectableStatusColours(appointments: seq<Appointment>, id: string, k: nat)
    requires k < |SelectableStatuses|
    ensures StatusColour(SelectableStatuses[0]) == Yellow && StatusColour(SelectableStatuses[1]) == Green
    ensures StatusColour(SelectableStatuses[2]) == Red && StatusColour(SelectableStatuses[3]) == Red
    ensures forall i :: 0 <= i < |appointments| && appointments[i].id == id ==>
      StatusColour(SetStatus(appointments, id, SelectableStatuses[k])[i].status) == StatusColour(SelectableStatuses[k])
  {
  }
}

=== FILE: common.dfy ===
/**
  Shapes shared by every screen of the front end: optional values, the
  browser's key/value token store, JavaScript's `a || fallback` on a message
  that may be missing or empty, and the abstract replies of the REST backend.
 */
module Common {

  datatype Option<+T> = None | Some(value: T)

  /** The message every sign-up form reports when one of its fields is empty. */
  const AllFieldsRequired: string := "All fields are required."

  /** The generic message shown when a sign-up request is refused without a server message. */
  const SignupFailed: string := "Signup failed. Please try again."

  /** The generic message shown when a sign-in or OTP request throws. */
  const SomethingWentWrong: string := "Something went wrong. Please try again."

  /**
    JavaScript `message || fallback` where `message` is a string property of
    a reply that may be absent: an absent or empty message is falsy.
   */
  function OrElse(message: Option<string>, fallback: string): (r: string)
    ensures r == fallback || (message == Some(r) && r != "")
    ensures message.Some? && message.value != "" ==> r == message.value
    ensures fallback != "" ==> r != ""
  {
    if message.Some? && message.value != "" then message.value else fallback
  }

  /** The messages the doctor and hospital sign-up forms share. */
  const WeakPassword: string := "Weak password."
  const InvalidContactNumber: string := "Invalid contact number."
  const InvalidPostalCode: string := "Invalid postal code."

  /** The message the hospital and patient sign-up forms give for a malformed email. */
  const InvalidEmailAddress: string := "Please enter a valid email address."

  /** The key under which each role's session token is stored. */
  const PatientTokenKey: string := "patientToken"
  const DoctorTokenKey: string := "doctorToken"

  /** The sign-in route of each role. */
  const PatientSigninPath: string := "/patient/signin"
  const DoctorSigninPath: string := "/doctor/signin"
  const HospitalSigninPath: string := "/hospital/signin"

  /** Local storage of the browser: a map from key to stored string. */
  type Storage = map<string, string>

  /**
    The string `localStorage.setItem` stores for a reply property that may be
    missing: the value is converted to a string, so a missing token is stored
    as the text "undefined".
   */
  function StoredText(value: Option<string>): (stored: string)
    ensures value.Some? ==> stored == value.value
    ensures value.None? ==> stored == "undefined"
    ensures stored != "" || value == Some("")
  {
    if value.Some? then value.value else "undefined"
  }

  /** `localStorage.getItem(key)` is truthy: present and not the empty string. */
  predicate HasToken(storage: Storage, key: string)
  {
    key in storage && storage[key] != ""
  }

  /**
    The outcome of a sign-up POST: the request resolved, or it threw, carrying
    the `message` of the server's error body when there was one.
   */
  datatype SignupReply = Created | Refused(message: Option<string>)

  /**
    The body of a resolved sign-in / OTP POST: its `status`, `message` and the
    token property the screen reads; or the request threw.
   */
  datatype ReplyBody = ReplyBody(status: Option<string>, message: Option<string>, token: Option<string>)

  datatype AuthReply = Answered(body: ReplyBody) | Threw

  /** The backend signals a failed sign-in or OTP check with `status === "error"`. */
  predicate IsErrorBody(body: ReplyBody)
  {
    body.status == Some("error")
  }
}

=== FILE: doctor_signin.dfy ===
/**
  The doctor sign-in screen (app/doctor/signin/page.tsx): the guard against
  empty credentials and how the reply to the sign-in request decides between
  storing the token and showing a message.
 */
module DoctorSignin {
  import opened Common

  const MissingCredentials: string := "Please enter both email and password."
  const DashboardPrefix: string := "/doctor/dashboard?email="

  datatype SigninScreen = SigninScreen(
    email: string,
    password: string,
    error: string,
    storage: Storage,
    navigation: Option<string>)

  datatype Credentials = Credentials(email: string, password: string)

  datatype SigninEffect = SigninEffect(request: Option<Credentials>, screen: SigninScreen)

  /** The dashboard route; the email is appended to the query string as typed. */
  function DashboardTarget(email: string): (target: string)
    ensures |target| == |DashboardPrefix| + |email|
    ensures target[..|DashboardPrefix|] == DashboardPrefix
    ensures target[|DashboardPrefix|..] == email
  {
    DashboardPrefix + email
  }

  /**
    The text the error line shows after `setError(response.data.message)`:
    a missing message leaves nothing to show, as the empty string does.
   */
  function ShownMessage(message: Option<string>): (shown: string)
    ensures message.Some? ==> shown == message.value
    ensures message.None? ==> shown == ""
  {
    if message.Some? then message.value else ""
  }

  /**
    `handleSignIn`: an empty email or password sets the error and sends
    nothing. Otherwise the credentials are posted; an error reply shows the
    server's message and stores nothing; any other reply stores its token
    under "doctorToken" and navigates to the dashboard with the email in the
    query; a thrown request shows the generic failure.
   */
  function HandleSignIn(s: SigninScreen, reply: AuthReply): (r: SigninEffect)
    ensures r.request.Some? <==> s.email != "" && s.password != ""
    ensures r.request.Some? ==> r.request.value == Credentials(s.email, s.password)
    ensures r.request.None? ==> r.screen == s.(error := MissingCredentials)
    ensures r.request.Some? && reply.Answered? && IsErrorBody(reply.body) ==>
      r.screen == s.(error := ShownMessage(reply.body.message))
    ensures r.request.Some? && reply.Answered? && !IsErrorBody(reply.body) ==>
      r.screen == s.(storage := s.storage[DoctorTokenKey := StoredText(reply.body.token)],
                     navigation := Some(DashboardTarget(s.email)))
    ensures r.request.Some? && reply.Threw? ==> r.screen == s.(error := SomethingWentWrong)
  {
    if s.email == "" || s.password == "" then SigninEffect(None, s.(error := MissingCredentials))
    else
      var request := Some(Credentials(s.email, s.password));
      match reply
      case Threw => SigninEffect(request, s.(error := SomethingWentWrong))
      case Answered(body) =>
        if IsErrorBody(body) then SigninEffect(request, s.(error := ShownMessage(body.message)))
        else
          SigninEffect(request, s.(storage := s.storage[DoctorTokenKey := StoredText(body.token)],
                                   navigation := Some(DashboardTarget(s.email))))
  }

  /**
    A token is stored exactly on a non-error reply to a sent request, and
    the navigation target then carries the email back.
   */
  lemma TokenStoredOnlyOnSuccess(s: SigninScreen, reply: AuthReply)
    requires DoctorTokenKey !in s.storage
    ensures var r := HandleSignIn(s, reply);
      DoctorTokenKey in r.screen.storage <==> r.request.Some? && reply.Answered? && !IsErrorBody(reply.body)
    ensures var r := HandleSignIn(s, reply);
      r.screen.navigation != s.navigation ==> r.screen.navigation.value[|DashboardPrefix|..] == s.email
  {
  }
}

=== FILE: doctor_signup.dfy ===
/**
  The doctor sign-up screen (app/doctor/signup/page.tsx): the sixteen-field
  form, `validateForm`, which runs its checks in a fixed order and reports
  the first one that fails, and `handleSignUp`, which posts the form only
  when validation reports nothing.
 */
module DoctorSignup {
  import opened Common
  import opened JsNumber
  import opened Patterns

  /** The form state, field for field; every field holds the text typed or selected. */
  datatype DoctorForm = DoctorForm(
    firstName: string,
    lastName: string,
    email: string,
    age: string,
    contactNumber: string,
    specialization: string,
    address: string,
    city: string,
    state: string,
    postalCode: string,
    country: string,
    hospitalId: string,
    experience: string,
    education: string,
    password: string,
    confirmPassword: string)

  const InvalidEmail: string := "Invalid email."
  const InvalidAge: string := "Invalid age."
  const InvalidExperience: string := "Invalid experience."
  const PasswordsDoNotMatch: string := "Passwords do not match."

  /** The values the emptiness check inspects, in the order it lists them. */
  function CheckedFields(f: DoctorForm): seq<string>
  {
    [f.firstName, f.lastName, f.email, f.contactNumber, f.specialization, f.address,
     f.city, f.state, f.postalCode, f.country, f.hospitalId, f.experience,
     f.education, f.password, f.confirmPassword, f.age]
  }

  /** Some checked value is falsy; for a string that means empty, so blanks count as present. */
  predicate HasEmptyField(f: DoctorForm)
  {
    exists k :: 0 <= k < |CheckedFields(f)| && CheckedFields(f)[k] == ""
  }

  /** The emptiness check, field by field. */
  lemma HasEmptyFieldIff(f: DoctorForm)
    ensures HasEmptyField(f) <==>
      || f.firstName == "" || f.lastName == "" || f.email == "" || f.age == ""
      || f.contactNumber == "" || f.specialization == "" || f.address == ""
      || f.city == "" || f.state == "" || f.postalCode == "" || f.country == ""
      || f.hospitalId == "" || f.experience == "" || f.education == ""
      || f.password == "" || f.confirmPassword == ""
  {
    var fields := CheckedFields(f);
    assert fields[0] == f.firstName && fields[1] == f.lastName && fields[2] == f.email;
    assert fields[3] == f.contactNumber && fields[4] == f.specialization && fields[5] == f.address;
    assert fields[6] == f.city && fields[7] == f.state && fields[8] == f.postalCode;
    assert fields[9] == f.country && fields[10] == f.hospitalId && fields[11] == f.experience;
    assert fields[12] == f.education && fields[13] == f.password && fields[14] == f.confirmPassword;
    assert fields[15] == f.age;
  }

  /**
    `validateForm`: the message of the first failing check, or None. The
    checks run in the order emptiness, email, contact number, postal code,
    age, experience, password strength, password confirmation.
   */
  function ValidateForm(f: DoctorForm): (r: Option<string>)
    ensures (|| f.firstName == "" || f.lastName == "" || f.email == "" || f.age == ""
             || f.contactNumber == "" || f.specialization == "" || f.address == ""
             || f.city == "" || f.state == "" || f.postalCode == "" || f.country == ""
             || f.hospitalId == "" || f.experience == "" || f.education == ""
             || f.password == "" || f.confirmPassword == "")
            <==> r == Some(AllFieldsRequired)
    ensures r == Some(InvalidEmail) <==> !HasEmptyField(f) && !IsValidEmail(f.email)
    ensures r == Some(InvalidContactNumber) <==>
      !HasEmptyField(f) && IsValidEmail(f.email) && !IsValidPhoneNumber(f.contactNumber)
    ensures r == Some(InvalidPostalCode) <==>
      && !HasEmptyField(f) && IsValidEmail(f.email) && IsValidPhoneNumber(f.contactNumber)
      && !IsValidPostalCode(f.postalCode)
    ensures r == Some(InvalidAge) <==>
      && !HasEmptyField(f) && IsValidEmail(f.email) && IsValidPhoneNumber(f.contactNumber)
      && IsValidPostalCode(f.postalCode) && !IsValidAge(f.age)
    ensures r == Some(InvalidExperience) <==>
      && !HasEmptyField(f) && IsValidEmail(f.email) && IsValidPhoneNumber(f.contactNumber)
      && IsValidPostalCode(f.postalCode) && IsValidAge(f.age) && !IsValidExperience(f.experience)
    ensures r == Some(WeakPassword) <==>
      && !HasEmptyField(f) && IsValidEmail(f.email) && IsValidPhoneNumber(f.contactNumber)
      && IsValidPostalCode(f.postalCode) && IsValidAge(f.age) && IsValidExperience(f.experience)
      && !IsStrongPassword(f.password)
    ensures r == Some(PasswordsDoNotMatch) <==>
      && !HasEmptyField(f) && IsValidEmail(f.email) && IsValidPhoneNumber(f.contactNumber)
      && IsValidPostalCode(f.postalCode) && IsValidAge(f.age) && IsValidExperience(f.experience)
      && IsStrongPassword(f.password) && f.password != f.confirmPassword
    ensures r == None <==>
      && !HasEmptyField(f) && IsValidEmail(f.email) && IsValidPhoneNumber(f.contactNumber)
      && IsValidPostalCode(f.postalCode) && IsValidAge(f.age) && IsValidExperience(f.experience)
      && IsStrongPassword(f.password) && f.password == f.confirmPassword
  {
    HasEmptyFieldIff(f);
    if HasEmptyField(f) then Some(AllFieldsRequired)
    else if !IsValidEmail(f.email) then Some(InvalidEmail)
    else if !IsValidPhoneNumber(f.contactNumber) then Some(InvalidContactNumber)
    else if !IsValidPostalCode(f.postalCode) then Some(InvalidPostalCode)
    else if !IsValidAge(f.age) then Some(InvalidAge)
    else if !IsValidExperience(f.experience) then Some(InvalidExperience)
    else if !IsStrongPassword(f.password) then Some(WeakPassword)
    else if f.password != f.confirmPassword then Some(PasswordsDoNotMatch)
    else None
  }

  /** What one press of the sign-up button does: the request sent, the error shown, the navigation. */
  datatype SignupEffect = SignupEffect(request: Option<DoctorForm>, error: string, navigation: Option<string>)

  /**
    `handleSignUp`, given the error currently shown and the reply the
    backend would give to the POST: a validation message is shown and
    nothing is sent; otherwise the whole form is posted and the screen
    either navigates to sign-in or shows the server's message.
   */
  function HandleSignUp(shown: string, f: DoctorForm, reply: SignupReply): (r: SignupEffect)
    ensures r.request.Some? <==> ValidateForm(f).None?
    ensures r.request.Some? ==> r.request.value == f
    ensures ValidateForm(f).Some? ==> r.error == ValidateForm(f).value && r.navigation.None?
    ensures r.request.Some? && reply.Created? ==> r.navigation == Some(DoctorSigninPath) && r.error == shown
    ensures r.request.Some? && reply.Refused? ==>
      r.navigation.None? && r.error == OrElse(reply.message, SignupFailed)
  {
    match ValidateForm(f)
    case Some(message) => SignupEffect(None, message, None)
    case None =>
      match reply
      case Created => SignupEffect(Some(f), shown, Some(DoctorSigninPath))
      case Refused(message) => SignupEffect(Some(f), OrElse(message, SignupFailed), None)
  }

  /** A form with an empty field is never sent, whatever else it holds. */
  lemma EmptyFieldBlocksRequest(shown: string, f: DoctorForm, reply: SignupReply)
    requires HasEmptyField(f)
    ensures HandleSignUp(shown, f, reply) == SignupEffect(None, AllFieldsRequired, None)
  {
  }

  /**
    A field holding only a space counts as present: a blank first name is
    judged exactly like any other nonempty one, while an empty one is not.
   */
  lemma BlankNameCountsAsPresent(f: DoctorForm, name: string)
    requires name != ""
    ensures ValidateForm(f.(firstName := " ")) == ValidateForm(f.(firstName := name))
    ensures ValidateForm(f.(firstName := "")) == Some(AllFieldsRequired)
  {
    HasEmptyFieldIff(f.(firstName := " "));
    HasEmptyFieldIff(f.(firstName := name));
  }

  /** A weak password is reported before a mismatch: the mismatch message needs a strong password. */
  lemma WeakPasswordBeforeMismatch(f: DoctorForm)
    requires !IsStrongPassword(f.password) && f.password != f.confirmPassword
    ensures ValidateForm(f) != Some(PasswordsDoNotMatch)
    ensures !HasEmptyField(f) && IsValidEmail(f.email) && IsValidPhoneNumber(f.contactNumber)
            && IsValidPostalCode(f.postalCode) && IsValidAge(f.age) && IsValidExperience(f.experience)
            ==> ValidateForm(f) == Some(WeakPassword)
  {
  }

  /**
    Age "0" is rejected while experience "0" passes: the two numeric checks
    differ only in the strictness of the bound.
   */
  lemma ZeroAgeRejectedZeroExperienceAccepted(f: DoctorForm)
    requires !HasEmptyField(f) && IsValidEmail(f.email) && IsValidPhoneNumber(f.contactNumber)
    requires IsValidPostalCode(f.postalCode) && IsStrongPassword(f.password)
    requires f.password == f.confirmPassword
    ensures ValidateForm(f.(age := "0")) == Some(InvalidAge)
    ensures ValidateForm(f.(age := "35", experience := "0")).None?
  {
    ZeroIsExperienceButNoAge();
    HasEmptyFieldIff(f);
    HasEmptyFieldIff(f.(age := "0"));
    HasEmptyFieldIff(f.(age := "35", experience := "0"));
  }
}

=== FILE: hospital_signup.dfy ===
/**
  The hospital sign-up screen (app/hospital/signup/page.tsx): ten text
  fields and an uploaded registration document, `validateForm` with its own
  check order, and `handleSignUp`, which turns the form into a multipart
  payload and posts it only when validation reports nothing.
 */
module HospitalSignup {
  import opened Common
  import opened Patterns

  datatype HospitalForm = HospitalForm(
    name: string,
    state: string,
    city: string,
    country: string,
    postalCode: string,
    address: string,
    email: string,
    password: string,
    contactNumber: string,
    services: string)

  /** The chosen file; its contents are not modelled. */
  datatype Document = Document(fileName: string)

  const DocumentMissing: string := "Please upload a registration document."

  /** The values the emptiness check inspects, in the order it lists them. */
  function CheckedFields(f: HospitalForm): seq<string>
  {
    [f.name, f.state, f.city, f.country, f.postalCode, f.address, f.email, f.password,
     f.contactNumber, f.services]
  }

  predicate HasEmptyField(f: HospitalForm)
  {
    exists k :: 0 <= k < |CheckedFields(f)| && CheckedFields(f)[k] == ""
  }

  /** The emptiness check, field by field. */
  lemma HasEmptyFieldIff(f: HospitalForm)
    ensures HasEmptyField(f) <==>
      || f.name == "" || f.state == "" || f.city == "" || f.country == "" || f.postalCode == ""
      || f.address == "" || f.email == "" || f.password == "" || f.contactNumber == ""
      || f.services == ""
  {
    var fields := CheckedFields(f);
    assert fields[0] == f.name && fields[1] == f.state && fields[2] == f.city;
    assert fields[3] == f.country && fields[4] == f.postalCode && fields[5] == f.address;
    assert fields[6] == f.email && fields[7] == f.password && fields[8] == f.contactNumber;
    assert fields[9] == f.services;
  }

  /**
    `validateForm`: the message of the first failing check, or None. The
    checks run in the order emptiness, email, password strength, contact
    number, postal code, registration document; the document is not part
    of the emptiness check.
   */
  function ValidateForm(f: HospitalForm, document: Option<Document>): (r: Option<string>)
    ensures (|| f.name == "" || f.state == "" || f.city == "" || f.country == ""
             || f.postalCode == "" || f.address == "" || f.email == "" || f.password == ""
             || f.contactNumber == "" || f.services == "")
            <==> r == Some(AllFieldsRequired)
    ensures r == Some(InvalidEmailAddress) <==> !HasEmptyField(f) && !IsValidEmail(f.email)
    ensures r == Some(WeakPassword) <==>
      !HasEmptyField(f) && IsValidEmail(f.email) && !IsStrongPassword(f.password)
    ensures r == Some(InvalidContactNumber) <==>
      && !HasEmptyField(f) && IsValidEmail(f.email) && IsStrongPassword(f.password)
      && !IsValidPhoneNumber(f.contactNumber)
    ensures r == Some(InvalidPostalCode) <==>
      && !HasEmptyField(f) && IsValidEmail(f.email) && IsStrongPassword(f.password)
      && IsValidPhoneNumber(f.contactNumber) && !IsValidPostalCode(f.postalCode)
    ensures r == Some(DocumentMissing) <==>
      && !HasEmptyField(f) && IsValidEmail(f.email) && IsStrongPassword(f.password)
      && IsValidPhoneNumber(f.contactNumber) && IsValidPostalCode(f.postalCode)
      && document.None?
    ensures r == None <==>
      && !HasEmptyField(f) && IsValidEmail(f.email) && IsStrongPassword(f.password)
      && IsValidPhoneNumber(f.contactNumber) && IsValidPostalCode(f.postalCode)
      && document.Some?
  {
    HasEmptyFieldIff(f);
    if HasEmptyField(f) then Some(AllFieldsRequired)
    else if !IsValidEmail(f.email) then Some(InvalidEmailAddress)
    else if !IsStrongPassword(f.password) then Some(WeakPassword)
    else if !IsValidPhoneNumber(f.contactNumber) then Some(InvalidContactNumber)
    else if !IsValidPostalCode(f.postalCode) then Some(InvalidPostalCode)
    else if document.None? then Some(DocumentMissing)
    else None
  }

  // ------------------------------------------------------------ payload

  /** One part of the multipart body: a text value or the uploaded file. */
  datatype Part = TextPart(text: string) | FilePart(document: Document)

  type Payload = seq<(string, Part)>

  /**
    The body `handleSignUp` builds: every form field under its own key, in
    the order of the form state, then the document, when there is one,
    under "registrationDocument".
   */
  function BuildPayload(f: HospitalForm, document: Option<Document>): (p: Payload)
    ensures |p| == if document.Some? then 11 else 10
    ensures forall i :: 0 <= i < |p| ==> (p[i].1.FilePart? <==> i == 10)
    ensures DistinctKeys(p)
  {
    var fields: Payload := [
      ("name", TextPart(f.name)), ("state", TextPart(f.state)), ("city", TextPart(f.city)),
      ("country", TextPart(f.country)), ("postalCode", TextPart(f.postalCode)),
      ("address", TextPart(f.address)), ("email", TextPart(f.email)),
      ("password", TextPart(f.password)), ("contactNumber", TextPart(f.contactNumber)),
      ("services", TextPart(f.services))];
    if document.Some? then fields + [("registrationDocument", FilePart(document.value))] else fields
  }

  /** The first part stored under `key`, as a server reading the body would find it. */
  function Lookup(p: Payload, key: string): Option<Part>
    decreases |p|
  {
    if p == [] then None else if p[0].0 == key then Some(p[0].1) else Lookup(p[1..], key)
  }

  function TextOf(p: Payload, key: string): Option<string>
  {
    match Lookup(p, key)
    case Some(TextPart(t)) => Some(t)
    case _ => None
  }

  /** Reading a form and its document back out of a body; None when a text field is missing. */
  function ReadPayload(p: Payload): Option<(HospitalForm, Option<Document>)>
  {
    var name := TextOf(p, "name");
    var state := TextOf(p, "state");
    var city := TextOf(p, "city");
    var country := TextOf(p, "country");
    var postalCode := TextOf(p, "postalCode");
    var address := TextOf(p, "address");
    var email := TextOf(p, "email");
    var password := TextOf(p, "password");
    var contactNumber := TextOf(p, "contactNumber");
    var services := TextOf(p, "services");
    if && name.Some? && state.Some? && city.Some? && country.Some? && postalCode.Some?
       && address.Some? && email.Some? && password.Some? && contactNumber.Some? && services.Some?
    then
      var document := match Lookup(p, "registrationDocument")
        case Some(FilePart(d)) => Some(d)
        case _ => None;
      Some((HospitalForm(name.value, state.value, city.value, country.value, postalCode.value,
                         address.value, email.value, password.value, contactNumber.value,
                         services.value), document))
    else None
  }

  /** Every key of a payload occurs once. */
  predicate DistinctKeys(p: Payload)
  {
    forall i, j :: 0 <= i < j < |p| ==> p[i].0 != p[j].0
  }

  /** With distinct keys, looking up the key of any part finds that part. */
  lemma {:induction false} LookupAt(p: Payload, i: nat)
    requires DistinctKeys(p) && i < |p|
    ensures Lookup(p, p[i].0) == Some(p[i].1)
    decreases i
  {
    if i > 0 {
      assert p[1..][i - 1] == p[i];
      LookupAt(p[1..], i - 1);
    }
  }

  /** A key no part carries finds nothing. */
  lemma {:induction false} LookupAbsent(p: Payload, key: string)
    requires forall i :: 0 <= i < |p| ==> p[i].0 != key
    ensures Lookup(p, key) == None
    decreases |p|
  {
    if p != [] {
      assert forall i :: 1 <= i < |p| ==> p[1..][i - 1] == p[i];
      LookupAbsent(p[1..], key);
    }
  }

  lemma PayloadKeysDistinct(f: HospitalForm, document: Option<Document>)
    ensures DistinctKeys(BuildPayload(f, document))
  {
  }

  lemma PayloadTextFields(f: HospitalForm, document: Option<Document>)
    ensures var p := BuildPayload(f, document);
      && TextOf(p, "name") == Some(f.name) && TextOf(p, "state") == Some(f.state)
      && TextOf(p, "city") == Some(f.city) && TextOf(p, "country") == Some(f.country)
      && TextOf(p, "postalCode") == Some(f.postalCode) && TextOf(p, "address") == Some(f.address)
      && TextOf(p, "email") == Some(f.email) && TextOf(p, "password") == Some(f.password)
      && TextOf(p, "contactNumber") == Some(f.contactNumber) && TextOf(p, "services") == Some(f.services)
  {
    var p := BuildPayload(f, document);
    PayloadKeysDistinct(f, document);
    LookupAt(p, 0);
    LookupAt(p, 1);
    LookupAt(p, 2);
    LookupAt(p, 3);
    LookupAt(p, 4);
    LookupAt(p, 5);
    LookupAt(p, 6);
    LookupAt(p, 7);
    LookupAt(p, 8);
    LookupAt(p, 9);
    assert p[0].0 == "name" && p[1].0 == "state" && p[2].0 == "city" && p[3].0 == "country";
    assert p[4].0 == "postalCode" && p[5].0 == "address" && p[6].0 == "email";
    assert p[7].0 == "password" && p[8].0 == "contactNumber" && p[9].0 == "services";
  }

  lemma PayloadDocument(f: HospitalForm, document: Option<Document>)
    ensures var p := BuildPayload(f, document);
      Lookup(p, "registrationDocument") == if document.Some? then Some(FilePart(document.value)) else None
  {
    var p := BuildPayload(f, document);
    PayloadKeysDistinct(f, document);
    if document.Some? {
      LookupAt(p, 10);
    } else {
      LookupAbsent(p, "registrationDocument");
    }
  }

  /**
    The payload carries the whole form and the document: reading it back
    gives exactly what was built, and no key occurs twice.
   */
  lemma PayloadRoundTrip(f: HospitalForm, document: Option<Document>)
    ensures DistinctKeys(BuildPayload(f, document))
    ensures ReadPayload(BuildPayload(f, document)) == Some((f, document))
    ensures |BuildPayload(f, document)| == if document.Some? then 11 else 10
  {
    PayloadKeysDistinct(f, document);
    PayloadTextFields(f, document);
    PayloadDocument(f, document);
  }

  // --------------------------------------------------------- handleSignUp

  datatype SignupEffect = SignupEffect(request: Option<Payload>, error: string, navigation: Option<string>)

  /**
    `handleSignUp`, given the error currently shown and the reply to the
    POST: a validation message is shown and nothing is sent; otherwise the
    payload is posted and the screen navigates to sign-in when the request
    resolves. A refused request is only announced in a toast, so the shown
    error stays as it was.
   */
  function HandleSignUp(shown: string, f: HospitalForm, document: Option<Document>, reply: SignupReply): (r: SignupEffect)
    ensures r.request.Some? <==> ValidateForm(f, document).None?
    ensures ValidateForm(f, document).Some? ==>
      r.error == ValidateForm(f, document).value && r.navigation.None?
    ensures r.request.Some? ==> r.request.value == BuildPayload(f, document) && document.Some?
    ensures r.request.Some? ==> ReadPayload(r.request.value) == Some((f, document))
    ensures r.request.Some? ==> r.error == shown
    ensures r.request.Some? ==> r.navigation == (if reply.Created? then Some(HospitalSigninPath) else None)
  {
    match ValidateForm(f, document)
    case Some(message) => SignupEffect(None, message, None)
    case None =>
      PayloadRoundTrip(f, document);
      var payload := BuildPayload(f, document);
      if reply.Created? then SignupEffect(Some(payload), shown, Some(HospitalSigninPath))
      else SignupEffect(Some(payload), shown, None)
  }

  /** A form that passes every text check but has no document is refused with the upload message. */
  lemma MissingDocumentRejected(shown: string, f: HospitalForm, reply: SignupReply)
    requires !HasEmptyField(f) && IsValidEmail(f.email) && IsStrongPassword(f.password)
    requires IsValidPhoneNumber(f.contactNumber) && IsValidPostalCode(f.postalCode)
    ensures HandleSignUp(shown, f, None, reply) == SignupEffect(None, DocumentMissing, None)
  {
  }
}

=== FILE: js_number.dfy ===
/**
  The part of JavaScript's `Number(string)` coercion that the age and
  experience checks of the sign-up forms depend on, and the two checks
  themselves. Only what the checks observe is kept of the number: whether
  it is NaN, infinite, a non-integer, or which integer it is.
 */
module JsNumber {
  import opened Common
  import opened Text

  /**
    What the checks observe of a number. The sign of an infinity is dropped:
    `Number.isInteger` rejects both, whatever the bound.
   */
  datatype NumberValue = NotANumber | Infinity | NonInteger | Integer(n: int)

  /**
    The least magnitude an IEEE 754 double rounds to infinity:
    2^1024 - 2^970, halfway between the largest finite double
    (2^1024 - 2^971) and 2^1024, where ties round to the even neighbour,
    which is infinity.
   */
  const DoubleOverflow: nat :=
    0xFFFFFFFFFFFFFC00_0000000000000000_0000000000000000_0000000000000000_0000000000000000_0000000000000000_0000000000000000_0000000000000000_0000000000000000_0000000000000000_0000000000000000_0000000000000000_0000000000000000_0000000000000000_0000000000000000_0000000000000000

  /** An integer-valued literal of magnitude `n`: finite below the overflow bound, infinite from it on. */
  function FromMagnitude(n: nat): (v: NumberValue)
    ensures v.Integer? <==> n < DoubleOverflow
    ensures v.Integer? ==> v.n == n
    ensures v.Infinity? <==> n >= DoubleOverflow
  {
    if n < DoubleOverflow then Integer(n) else Infinity
  }

  /** The value of a string of decimal digits, most significant first. */
  function DecimalValue(d: string): nat
    requires AllDigits(d)
    decreases |d|
  {
    if d == [] then 0 else 10 * DecimalValue(d[..|d| - 1]) + (d[|d| - 1] as int - '0' as int)
  }

  /**
    An unsigned decimal literal: digits, or digits and a '.' with more
    digits, at least one digit in all. A fraction made only of zeros
    leaves an integer.
   */
  function UnsignedDecimal(u: string): (v: NumberValue)
    ensures v.Integer? ==> 0 <= v.n < DoubleOverflow
  {
    if u != [] && AllDigits(u) then FromMagnitude(DecimalValue(u))
    else match IndexOf(u, '.')
      case None => NotANumber
      case Some(k) =>
        var whole := u[..k];
        var fraction := u[k + 1..];
        if AllDigits(whole) && AllDigits(fraction) && |whole| + |fraction| > 0 then
          if forall i :: 0 <= i < |fraction| ==> fraction[i] == '0' then FromMagnitude(DecimalValue(whole))
          else NonInteger
        else NotANumber
  }

  function Negate(v: NumberValue): NumberValue
  {
    if v.Integer? then Integer(-v.n) else v
  }

  /**
    `Number(s)`: surrounding whitespace is ignored, an empty or blank string
    is 0, and an optional sign may precede the literal.
   */
  function ToNumber(s: string): (v: NumberValue)
    ensures AllWhitespace(s) ==> v == Integer(0)
    ensures v.Integer? ==> -(DoubleOverflow as int) < v.n < DoubleOverflow
  {
    var t := Trim(s);
    if t == [] then Integer(0)
    else if t[0] == '-' then Negate(UnsignedDecimal(t[1..]))
    else if t[0] == '+' then UnsignedDecimal(t[1..])
    else UnsignedDecimal(t)
  }

  /**
    The age check: the form rejects when `isNaN(n) || n <= 0 ||
    !Number.isInteger(n)` for `n = Number(age)`.
   */
  predicate IsValidAge(s: string)
    ensures IsValidAge(s) ==> IsValidExperience(s)
  {
    var v := ToNumber(s);
    v.Integer? && v.n > 0
  }

  /**
    The experience check: the form rejects when `isNaN(n) || n < 0 ||
    !Number.isInteger(n)` for `n = Number(experience)`.
   */
  predicate IsValidExperience(s: string)
  {
    var v := ToNumber(s);
    v.Integer? && v.n >= 0
  }

  /** A literal that starts and ends with a digit is read without trimming and without a sign. */
  lemma UnsignedLiteral(u: string)
    requires u != [] && IsAsciiDigit(u[0]) && IsAsciiDigit(u[|u| - 1])
    ensures ToNumber(u) == UnsignedDecimal(u)
  {
    TrimUnpadded(u);
  }

  /**
    A nonempty string of digits coerces to the integer it spells, or to
    infinity when that integer reaches the overflow bound.
   */
  lemma DigitStringNumber(d: string)
    requires d != [] && AllDigits(d)
    ensures DecimalValue(d) < DoubleOverflow ==> ToNumber(d) == Integer(DecimalValue(d))
    ensures DecimalValue(d) >= DoubleOverflow ==> ToNumber(d) == Infinity
  {
    UnsignedLiteral(d);
    assert UnsignedDecimal(d) == FromMagnitude(DecimalValue(d));
  }

  /** A digit string spells a positive number exactly when one of its digits is not '0'. */
  lemma {:induction false} DecimalPositiveIffNonzeroDigit(d: string)
    requires AllDigits(d)
    ensures DecimalValue(d) > 0 <==> exists k :: 0 <= k < |d| && d[k] != '0'
    decreases |d|
  {
    if d != [] {
      var init := d[..|d| - 1];
      DecimalPositiveIffNonzeroDigit(init);
      if exists k :: 0 <= k < |init| && init[k] != '0' {
        var k :| 0 <= k < |init| && init[k] != '0';
        assert d[k] != '0';
      }
      if exists k :: 0 <= k < |d| && d[k] != '0' {
        var k :| 0 <= k < |d| && d[k] != '0';
        if k < |d| - 1 {
          assert init[k] != '0';
        }
      }
    }
  }

  /**
    On digit strings below the overflow bound the age check accepts exactly
    the strings with a nonzero digit, while the experience check accepts
    every one of them: "0" is no age but is a valid number of years of
    experience. From the bound on, the value is infinite and both reject.
   */
  lemma DigitStringAgeAndExperience(d: string)
    requires d != [] && AllDigits(d)
    ensures IsValidAge(d) <==> DecimalValue(d) < DoubleOverflow && exists k :: 0 <= k < |d| && d[k] != '0'
    ensures IsValidExperience(d) <==> DecimalValue(d) < DoubleOverflow
  {
    DigitStringNumber(d);
    DecimalPositiveIffNonzeroDigit(d);
  }

  /** "0" and "00" are rejected as ages and accepted as experience; "35" is an age. */
  lemma ZeroIsExperienceButNoAge()
    ensures !IsValidAge("0") && IsValidExperience("0")
    ensures !IsValidAge("00") && IsValidExperience("00")
    ensures IsValidAge("35")
  {
    assert ToNumber("0") == Integer(0) by {
      assert DecimalValue("0") == 0;
      DigitStringNumber("0");
    }
    assert ToNumber("00") == Integer(0) by {
      assert "00"[..1] == "0";
      assert DecimalValue("00") == 0;
      DigitStringNumber("00");
    }
    assert ToNumber("35") == Integer(35) by {
      assert "35"[..1] == "3";
      assert DecimalValue("35") == 35;
      DigitStringNumber("35");
    }
  }

  /**
    A blank string coerces to 0: it is no valid age, yet a valid number of
    years of experience, although the emptiness check lets it through.
   */
  lemma BlankIsZero(s: string)
    requires AllWhitespace(s)
    ensures ToNumber(s) == Integer(0)
    ensures !IsValidAge(s) && IsValidExperience(s)
  {
  }

  /** A fraction with a nonzero digit is no integer: "2.5" is neither an age nor an experience. */
  lemma FractionIsNoInteger()
    ensures ToNumber("2.5") == NonInteger && !IsValidAge("2.5") && !IsValidExperience("2.5")
  {
    UnsignedLiteral("2.5");
    TwoPointFive();
  }

  /** The unsigned reading of "2.5": digits, a dot, and a fraction with a nonzero digit. */
  lemma TwoPointFive()
    ensures UnsignedDecimal("2.5") == NonInteger
  {
    assert !AllDigits("2.5") by { assert !IsAsciiDigit("2.5"[1]); }
    assert IndexOf("2.5", '.') == Some(1);
    var whole, fraction := "2.5"[..1], "2.5"[2..];
    assert whole == "2" && fraction == "5";
    assert AllDigits(whole) && AllDigits(fraction);
    assert fraction[0] != '0';
  }

  /** A zero fraction leaves an integer: "4.0" is an age. */
  lemma ZeroFractionIsInteger()
    ensures ToNumber("4.0") == Integer(4) && IsValidAge("4.0")
  {
    UnsignedLiteral("4.0");
    FourPointZero();
  }

  /** The unsigned reading of "4.0": digits, a dot, and a zero fraction. */
  lemma FourPointZero()
    ensures UnsignedDecimal("4.0") == Integer(4)
  {
    assert !AllDigits("4.0") by { assert !IsAsciiDigit("4.0"[1]); }
    assert IndexOf("4.0", '.') == Some(1);
    assert "4.0"[..1] == "4" && "4.0"[2..] == "0";
    assert DecimalValue("4") == 4;
  }

  /** A leading minus sign negates: "-3" is neither an age nor an experience. */
  lemma NegativeIsRejected()
    ensures ToNumber("-3") == Integer(-3) && !IsValidAge("-3") && !IsValidExperience("-3")
  {
    TrimUnpadded("-3");
    assert "-3"[1..] == "3";
  }
}

=== FILE: nav_bar.dfy ===
/**
  The patient and doctor navigation bars (components/PatientNavBar.tsx,
  components/DoctorNavBar.tsx): avatar initials, which menu item is
  highlighted, the profile fetch on mount and logout. The two bars differ
  only in their constants and in whether a missing token redirects.
 */
module NavBar {
  import opened Common

  /** The profile fields the bars read. */
  datatype Person = Person(firstName: string, lastName: string, email: string)

  /** What differs between the two bars. */
  datatype Role = Role(tokenKey: string, signinPath: string, redirectWithoutToken: bool, avatarFallback: string)

  const PatientRole: Role := Role(PatientTokenKey, PatientSigninPath, false, "PA")
  const DoctorRole: Role := Role(DoctorTokenKey, DoctorSigninPath, true, "DA")

  /** `s.charAt(0)`: the first character, or the empty string. */
  function FirstChar(s: string): (r: string)
    ensures |r| == (if s == [] then 0 else 1) && r == s[..|r|]
  {
    if s == [] then [] else [s[0]]
  }

  /**
    `getInitials`: the role's fallback when no profile is loaded, otherwise
    the first character of the first name followed by that of the last name.
   */
  function Initials(role: Role, person: Option<Person>): (r: string)
    ensures person.None? ==> r == role.avatarFallback
    ensures person.Some? ==> |r| <= 2
    ensures person.Some? ==>
      |r| == (if person.value.firstName != "" then 1 else 0) + (if person.value.lastName != "" then 1 else 0)
    ensures person.Some? && person.value.firstName != "" ==> |r| >= 1 && r[0] == person.value.firstName[0]
    ensures person.Some? && person.value.lastName != "" ==> |r| >= 1 && r[|r| - 1] == person.value.lastName[0]
    ensures person.Some? && person.value.firstName != "" && person.value.lastName != "" ==>
      r == [person.value.firstName[0], person.value.lastName[0]]
  {
    match person
    case None => role.avatarFallback
    case Some(p) => FirstChar(p.firstName) + (if p.lastName != "" then FirstChar(p.lastName) else "")
  }

  datatype NavItem = NavItem(name: string, href: string)

  const PatientItems: seq<NavItem> := [
    NavItem("Dashboard", "/patient/dashboard"),
    NavItem("Appointments", "/patient/appointments"),
    NavItem("Profile", "/patient/profile"),
    NavItem("Search", "/patient/search")]

  const DoctorItems: seq<NavItem> := [
    NavItem("Dashboard", "/doctor/dashboard"),
    NavItem("Appointments", "/doctor/appointments"),
    NavItem("Profile", "/doctor/profile")]

  /** `pathname === item.href ? "bg-accent" : ""`, item by item. */
  function Highlights(items: seq<NavItem>, pathname: string): (flags: seq<bool>)
    ensures |flags| == |items|
    ensures forall i :: 0 <= i < |items| ==> (flags[i] <==> items[i].href == pathname)
    decreases |items|
  {
    if items == [] then [] else [items[0].href == pathname] + Highlights(items[1..], pathname)
  }

  predicate DistinctHrefs(items: seq<NavItem>)
  {
    forall i, j :: 0 <= i < j < |items| ==> items[i].href != items[j].href
  }

  /**
    With distinct hrefs at most one item is highlighted, and one is exactly
    when the pathname is one of the hrefs.
   */
  lemma AtMostOneHighlight(items: seq<NavItem>, pathname: string)
    requires DistinctHrefs(items)
    ensures var flags := Highlights(items, pathname);
      forall i, j :: 0 <= i < |flags| && 0 <= j < |flags| && flags[i] && flags[j] ==> i == j
    ensures var flags := Highlights(items, pathname);
      (exists i :: 0 <= i < |flags| && flags[i]) <==> exists i :: 0 <= i < |items| && items[i].href == pathname
  {
    var flags := Highlights(items, pathname);
    forall i, j | 0 <= i < |flags| && 0 <= j < |flags| && flags[i] && flags[j]
      ensures i == j
    {
      if i != j {
        assert false;
      }
    }
    if exists i :: 0 <= i < |items| && items[i].href == pathname {
      var i :| 0 <= i < |items| && items[i].href == pathname;
      assert flags[i];
    }
  }

  /** Both bars list distinct hrefs, so each highlights at most one item. */
  lemma BarsHaveDistinctHrefs()
    ensures DistinctHrefs(PatientItems)
    ensures DistinctHrefs(DoctorItems)
  {
  }

  // ------------------------------------------------------- profile fetch

  /**
    How the profile GET ends: resolved with `response.data`, absent or
    holding a `data` property that may itself be absent; or threw, with the
    HTTP status of the error response when there was one.
   */
  datatype ProfileReply = Received(body: Option<Option<Person>>) | Failed(httpStatus: Option<int>)

  datatype NavState = NavState(
    person: Option<Person>,
    loading: bool,
    storage: Storage,
    navigation: Option<string>,
    requested: bool)

  /**
    `fetchUserInfo` run on mount: with no token nothing is requested, loading
    ends and the doctor bar redirects to sign-in; otherwise the profile is
    requested, a response body replaces the person, a 401 removes the token,
    and loading always ends false.
   */
  function FetchUserInfo(role: Role, s: NavState, reply: ProfileReply): (r: NavState)
    ensures !r.loading
    ensures r.requested <==> HasToken(s.storage, role.tokenKey)
    ensures !r.requested ==> r.person == s.person && r.storage == s.storage
    ensures !r.requested ==>
      r.navigation == (if role.redirectWithoutToken then Some(role.signinPath) else s.navigation)
    ensures r.requested ==> r.navigation == s.navigation
    ensures r.requested && reply.Received? ==>
      r.person == (if reply.body.Some? then reply.body.value else s.person) && r.storage == s.storage
    ensures r.requested && reply.Failed? ==>
      r.person == s.person
      && r.storage == (if reply.httpStatus == Some(401) then s.storage - {role.tokenKey} else s.storage)
  {
    if !HasToken(s.storage, role.tokenKey) then
      s.(loading := false, requested := false,
         navigation := if role.redirectWithoutToken then Some(role.signinPath) else s.navigation)
    else
      var asked := s.(requested := true);
      var settled := match reply
        case Received(body) => if body.Some? then asked.(person := body.value) else asked
        case Failed(status) =>
          if status == Some(401) then asked.(storage := s.storage - {role.tokenKey}) else asked;
      settled.(loading := false)
  }

  /**
    The doctor bar without a token makes no request, stops loading and
    redirects to sign-in; the patient bar only stops loading.
   */
  lemma NoTokenShortCircuit(s: NavState, reply: ProfileReply)
    requires !HasToken(s.storage, DoctorTokenKey) && !HasToken(s.storage, PatientTokenKey)
    ensures FetchUserInfo(DoctorRole, s, reply) ==
      s.(loading := false, requested := false, navigation := Some(DoctorSigninPath))
    ensures FetchUserInfo(PatientRole, s, reply) == s.(loading := false, requested := false)
  {
  }

  /** `handleLogout`: the role's token is removed and the screen goes to sign-in. */
  function Logout(role: Role, s: NavState): (r: NavState)
    ensures role.tokenKey !in r.storage
    ensures forall key :: key in s.storage && key != role.tokenKey ==> key in r.storage && r.storage[key] == s.storage[key]
    ensures r.navigation == Some(role.signinPath)
    ensures r == s.(storage := s.storage - {role.tokenKey}, navigation := Some(role.signinPath))
  {
    s.(storage := s.storage - {role.tokenKey}, navigation := Some(role.signinPath))
  }

  /** After logging out, the next mount finds no token and requests nothing. */
  lemma LogoutThenFetchRequestsNothing(role: Role, s: NavState, reply: ProfileReply)
    ensures !FetchUserInfo(role, Logout(role, s), reply).requested
  {
  }
}

=== FILE: patient_otp.dfy ===
/**
  The patient OTP screen (app/patient/otp/page.tsx): the input capped at six
  characters, the length guard of `handleSubmit`, and how the reply to the
  verification request decides between storing the token and showing an
  error.
 */
module PatientOtp {
  import opened Common

  const OtpLength: nat := 6
  const InvalidOtp: string := "Please enter a valid 6-digit OTP."
  const VerificationFailed: string := "OTP verification failed."
  const OtpVerified: string := "OTP verified successfully!"
  const DashboardPath: string := "/patient/dashboard"

  /** The input's `maxLength={6}`: whatever is typed or pasted, the field keeps at most six characters. */
  function CapInput(typed: string): (otp: string)
    ensures |otp| <= OtpLength && |otp| <= |typed|
    ensures |otp| == if |typed| < OtpLength then |typed| else OtpLength
    ensures otp == typed[..|otp|]
    ensures |typed| <= OtpLength ==> otp == typed
  {
    if |typed| <= OtpLength then typed else typed[..OtpLength]
  }

  /** `!otp || otp.length < 6`: the empty string is already shorter than six. */
  predicate RejectsOtp(otp: string)
    ensures RejectsOtp(otp) <==> |otp| < OtpLength
  {
    otp == "" || |otp| < OtpLength
  }

  /** What the screen holds. */
  datatype OtpScreen = OtpScreen(
    otp: string,
    errorMessage: string,
    successMessage: string,
    storage: Storage,
    navigation: Option<string>)

  /** The verification request: the OTP and the contact number taken from the query string. */
  datatype OtpRequest = OtpRequest(otp: string, contactNumber: string)

  datatype SubmitEffect = SubmitEffect(request: Option<OtpRequest>, screen: OtpScreen)

  /**
    `handleSubmit`: a short OTP sets the error and sends nothing. Otherwise
    the OTP is posted; an error reply shows its message (or the generic
    one) and stores nothing; any other reply stores its token under
    "patientToken", navigates to the dashboard, sets the success message
    and clears the error; a thrown request shows the generic failure.
   */
  function HandleSubmit(s: OtpScreen, contactNumber: string, reply: AuthReply): (r: SubmitEffect)
    ensures r.request.Some? <==> |s.otp| >= OtpLength
    ensures r.request.Some? ==> r.request.value == OtpRequest(s.otp, contactNumber)
    ensures r.request.None? ==> r.screen == s.(errorMessage := InvalidOtp)
    ensures r.request.Some? && reply.Answered? && IsErrorBody(reply.body) ==>
      r.screen == s.(errorMessage := OrElse(reply.body.message, VerificationFailed))
    ensures r.request.Some? && reply.Answered? && !IsErrorBody(reply.body) ==>
      r.screen == s.(storage := s.storage[PatientTokenKey := StoredText(reply.body.token)],
                     navigation := Some(DashboardPath),
                     successMessage := OtpVerified,
                     errorMessage := "")
    ensures r.request.Some? && reply.Threw? ==> r.screen == s.(errorMessage := SomethingWentWrong)
  {
    if RejectsOtp(s.otp) then SubmitEffect(None, s.(errorMessage := InvalidOtp))
    else
      var request := Some(OtpRequest(s.otp, contactNumber));
      match reply
      case Threw => SubmitEffect(request, s.(errorMessage := SomethingWentWrong))
      case Answered(body) =>
        if IsErrorBody(body) then
          SubmitEffect(request, s.(errorMessage := OrElse(body.message, VerificationFailed)))
        else
          SubmitEffect(request, s.(storage := s.storage[PatientTokenKey := StoredText(body.token)],
                                   navigation := Some(DashboardPath),
                                   successMessage := OtpVerified,
                                   errorMessage := ""))
  }

  /** The token store changes only on a non-error reply, and then only under "patientToken". */
  lemma StorageChangesOnlyOnSuccess(s: OtpScreen, contactNumber: string, reply: AuthReply, key: string)
    requires key != PatientTokenKey
    ensures var r := HandleSubmit(s, contactNumber, reply);
      && (key in r.screen.storage <==> key in s.storage)
      && (key in s.storage ==> r.screen.storage[key] == s.storage[key])
    ensures var r := HandleSubmit(s, contactNumber, reply);
      r.screen.storage != s.storage ==> r.request.Some? && reply.Answered? && !IsErrorBody(reply.body)
  {
  }

  /**
    With the input capped, an OTP that reaches the request has exactly six
    characters, and nothing checks they are digits.
   */
  lemma CappedOtpSentHasSixCharacters(s: OtpScreen, typed: string, contactNumber: string, reply: AuthReply)
    ensures var r := HandleSubmit(s.(otp := CapInput(typed)), contactNumber, reply);
      r.request.Some? ==> |r.request.value.otp| == OtpLength
    ensures var r := HandleSubmit(s.(otp := CapInput(typed)), contactNumber, reply);
      r.request.Some? <==> |typed| >= OtpLength
  {
  }

  /** Six letters pass the guard although the message asks for six digits. */
  lemma LettersPassTheGuard(s: OtpScreen, contactNumber: string, reply: AuthReply)
    ensures HandleSubmit(s.(otp := "abcdef"), contactNumber, reply).request == Some(OtpRequest("abcdef", contactNumber))
  {
  }
}

=== FILE: patient_signup.dfy ===
/**
  The patient sign-up screen (app/patient/signup/page.tsx): six fields,
  `validateForm` with the age check placed before the email check, the
  gender choices of the form, and `handleSignUp`.
 */
module PatientSignup {
  import opened Common
  import opened JsNumber
  import opened Patterns

  datatype PatientForm = PatientForm(
    firstName: string,
    lastName: string,
    age: string,
    gender: string,
    email: string,
    contactNumber: string)

  const InvalidAge: string := "Please enter a valid age."
  const ContactNumberNotTenDigits: string := "Contact number must be exactly 10 digits and contain only numbers."

  const SignupSucceeded: string := "Signup successful! Please check your email."

  /** The `gender` union of the patient record (types/patient.ts). */
  datatype Gender = Male | Female | Other | PreferNotToSay

  /** The string a gender is stored and sent as. */
  function GenderValue(g: Gender): string
  {
    match g
    case Male => "male"
    case Female => "female"
    case Other => "other"
    case PreferNotToSay => "prefer not to say"
  }

  function ParseGender(s: string): Option<Gender>
  {
    if s == "male" then Some(Male)
    else if s == "female" then Some(Female)
    else if s == "other" then Some(Other)
    else if s == "prefer not to say" then Some(PreferNotToSay)
    else None
  }

  /** The values of the gender select, in the order it lists them. */
  const GenderChoices: seq<string> := ["male", "female", "other", "prefer not to say"]

  /**
    The select offers exactly the four values of the union, each once: a
    value is a choice iff it is the string of some gender, and parsing a
    gender's string gives that gender back.
   */
  lemma GenderChoicesMatchUnion(s: string, g: Gender)
    ensures ParseGender(GenderValue(g)) == Some(g)
    ensures s in GenderChoices <==> ParseGender(s).Some?
    ensures ParseGender(s).Some? ==> GenderValue(ParseGender(s).value) == s
    ensures GenderValue(g) in GenderChoices
    ensures |GenderChoices| == 4
    ensures forall i, j :: 0 <= i < j < |GenderChoices| ==> GenderChoices[i] != GenderChoices[j]
  {
  }

  /**
    `validateForm`: the message of the first failing check, or None. The
    checks run in the order emptiness, age, email, contact number.
   */
  function ValidateForm(f: PatientForm): (r: Option<string>)
    ensures (|| f.firstName == "" || f.lastName == "" || f.age == "" || f.gender == ""
             || f.email == "" || f.contactNumber == "")
            <==> r == Some(AllFieldsRequired)
    ensures r == Some(InvalidAge) <==>
      && f.firstName != "" && f.lastName != "" && f.age != "" && f.gender != ""
      && f.email != "" && f.contactNumber != "" && !IsValidAge(f.age)
    ensures r == Some(InvalidEmailAddress) <==>
      && f.firstName != "" && f.lastName != "" && f.age != "" && f.gender != ""
      && f.email != "" && f.contactNumber != "" && IsValidAge(f.age) && !IsValidEmail(f.email)
    ensures r == Some(ContactNumberNotTenDigits) <==>
      && f.firstName != "" && f.lastName != "" && f.age != "" && f.gender != ""
      && f.email != "" && f.contactNumber != "" && IsValidAge(f.age) && IsValidEmail(f.email)
      && !IsValidPhoneNumber(f.contactNumber)
    ensures r == None <==>
      && f.firstName != "" && f.lastName != "" && f.age != "" && f.gender != ""
      && f.email != "" && f.contactNumber != "" && IsValidAge(f.age) && IsValidEmail(f.email)
      && IsValidPhoneNumber(f.contactNumber)
  {
    if || f.firstName == "" || f.lastName == "" || f.age == "" || f.gender == ""
       || f.email == "" || f.contactNumber == ""
    then Some(AllFieldsRequired)
    else if !IsValidAge(f.age) then Some(InvalidAge)
    else if !IsValidEmail(f.email) then Some(InvalidEmailAddress)
    else if !IsValidPhoneNumber(f.contactNumber) then Some(ContactNumberNotTenDigits)
    else None
  }

  /** The screen's two messages. */
  datatype Messages = Messages(error: string, success: string)

  datatype SignupEffect = SignupEffect(request: Option<PatientForm>, messages: Messages, navigation: Option<string>)

  /**
    `handleSignUp`: a validation message becomes the error and nothing is
    sent; otherwise the six fields are posted, and on success the success
    message is set, the error cleared and the screen navigates to sign-in,
    while a refusal shows the server's message or the generic one.
   */
  function HandleSignUp(shown: Messages, f: PatientForm, reply: SignupReply): (r: SignupEffect)
    ensures r.request.Some? <==> ValidateForm(f).None?
    ensures r.request.Some? ==> r.request.value == f
    ensures ValidateForm(f).Some? ==>
      r.messages == shown.(error := ValidateForm(f).value) && r.navigation.None?
    ensures r.request.Some? && reply.Created? ==>
      r.messages == Messages("", SignupSucceeded) && r.navigation == Some(PatientSigninPath)
    ensures r.request.Some? && reply.Refused? ==>
      r.messages == shown.(error := OrElse(reply.message, SignupFailed)) && r.navigation.None?
  {
    match ValidateForm(f)
    case Some(message) => SignupEffect(None, shown.(error := message), None)
    case None =>
      match reply
      case Created => SignupEffect(Some(f), Messages("", SignupSucceeded), Some(PatientSigninPath))
      case Refused(message) => SignupEffect(Some(f), shown.(error := OrElse(message, SignupFailed)), None)
  }

  /** Age is checked before email: a bad age hides a bad email. */
  lemma AgeReportedBeforeEmail(f: PatientForm)
    requires ValidateForm(f) != Some(AllFieldsRequired)
    requires !IsValidAge(f.age) && !IsValidEmail(f.email)
    ensures ValidateForm(f) == Some(InvalidAge)
  {
  }

  /** Age "0" is rejected even when every other field is valid. */
  lemma ZeroAgeRejected(f: PatientForm)
    requires ValidateForm(f).None?
    ensures ValidateForm(f.(age := "0")) == Some(InvalidAge)
  {
    ZeroIsExperienceButNoAge();
  }
}

=== FILE: patterns.dfy ===
/**
  The four regular expressions the sign-up forms test their fields against,
  each written twice: as the check the form performs, phrased as a scan
  over the string, and as a literal reading of the expression, with a lemma
  that the two accept the same strings.

    email     ^[^\s@]+@[^\s@]+\.[^\s@]+$
    password  ^(?=.*[A-Z])(?=.*\d)(?=.*[@$!%*?&])[A-Za-z\d@$!%*?&]{8,}$
    phone     ^\d{10}$
    postal    ^\d{4,10}$
 */
module Patterns {
  import opened Common
  import opened Text

  // ---------------------------------------------------------------- email

  /** The class `[^\s@]`. */
  predicate IsEmailChar(c: char)
  {
    !IsJsWhitespace(c) && c != '@'
  }

  /** One `[^\s@]+` run. */
  ghost predicate IsEmailRun(t: string)
  {
    |t| > 0 && forall k :: 0 <= k < |t| ==> IsEmailChar(t[k])
  }

  /** The email expression read literally: run '@' run '.' run, covering the whole string. */
  ghost predicate MatchesEmailPattern(s: string)
  {
    exists i, j ::
      && 0 <= i < j < |s| && s[i] == '@' && s[j] == '.'
      && IsEmailRun(s[..i]) && IsEmailRun(s[i + 1..j]) && IsEmailRun(s[j + 1..])
  }

  function Count(s: string, c: char): nat
    decreases |s|
  {
    if s == [] then 0 else (if s[0] == c then 1 else 0) + Count(s[1..], c)
  }

  /** `t` holds a '.' that is neither its first nor its last character. */
  predicate HasInnerDot(t: string)
  {
    exists j :: 1 <= j < |t| - 1 && t[j] == '.'
  }

  /**
    The email check as a scan: no whitespace, exactly one '@', something
    before it, and after it a '.' that is neither first nor last.
   */
  predicate IsValidEmail(s: string)
    ensures IsValidEmail(s) ==> |s| >= 5
  {
    && (forall k :: 0 <= k < |s| ==> !IsJsWhitespace(s[k]))
    && Count(s, '@') == 1
    && match IndexOf(s, '@')
      case None => false
      case Some(at) => at > 0 && HasInnerDot(s[at + 1..])
  }

  lemma {:induction false} CountZero(s: string, c: char)
    ensures Count(s, c) == 0 <==> forall k :: 0 <= k < |s| ==> s[k] != c
    decreases |s|
  {
    if s != [] {
      CountZero(s[1..], c);
      assert forall k :: 1 <= k < |s| ==> s[k] == s[1..][k - 1];
    }
  }

  /** A character that occurs at `i` occurs exactly once iff it occurs nowhere else. */
  lemma {:induction false} CountOne(s: string, c: char, i: nat)
    requires i < |s| && s[i] == c
    ensures Count(s, c) == 1 <==> forall k :: 0 <= k < |s| && k != i ==> s[k] != c
    decreases |s|
  {
    assert forall k :: 1 <= k < |s| ==> s[k] == s[1..][k - 1];
    if i == 0 {
      CountZero(s[1..], c);
    } else {
      CountZero(s[1..], c);
      CountOne(s[1..], c, i - 1);
    }
  }

  /** A slice of email characters is one run, and conversely. */
  lemma RunSlice(s: string, a: nat, b: nat)
    requires a < b <= |s|
    ensures IsEmailRun(s[a..b]) <==> forall k :: a <= k < b ==> IsEmailChar(s[k])
  {
    assert forall k :: a <= k < b ==> s[k] == s[a..b][k - a];
  }

  lemma EmailCheckImpliesPattern(s: string)
    requires IsValidEmail(s)
    ensures MatchesEmailPattern(s)
  {
    var at := IndexOf(s, '@').value;
    CountOne(s, '@', at);
    var t := s[at + 1..];
    var d :| 1 <= d < |t| - 1 && t[d] == '.';
    var j := at + 1 + d;
    assert s[j] == t[d] == '.';
    RunSlice(s, 0, at);
    assert s[..at] == s[0..at];
    RunSlice(s, at + 1, j);
    RunSlice(s, j + 1, |s|);
    assert s[j + 1..] == s[j + 1..|s|];
  }

  /** Around the '@' at `i` and the '.' at `j`, every character of a match is in `[^\s@]`. */
  lemma PatternCharacters(s: string, i: nat, j: nat)
    requires i < j < |s| && s[j] == '.'
    requires IsEmailRun(s[..i]) && IsEmailRun(s[i + 1..j]) && IsEmailRun(s[j + 1..])
    ensures forall k :: 0 <= k < |s| && k != i ==> IsEmailChar(s[k])
  {
    assert s[..i] == s[0..i];
    assert s[j + 1..] == s[j + 1..|s|];
    RunSlice(s, 0, i);
    RunSlice(s, i + 1, j);
    RunSlice(s, j + 1, |s|);
  }

  lemma PatternImpliesEmailCheck(s: string)
    requires MatchesEmailPattern(s)
    ensures IsValidEmail(s)
  {
    var i, j :| && 0 <= i < j < |s| && s[i] == '@' && s[j] == '.'
                && IsEmailRun(s[..i]) && IsEmailRun(s[i + 1..j]) && IsEmailRun(s[j + 1..]);
    PatternCharacters(s, i, j);
    assert forall k :: 0 <= k < |s| ==> !IsJsWhitespace(s[k]);
    CountOne(s, '@', i);
    assert IndexOf(s, '@') == Some(i);
    var t := s[i + 1..];
    assert t[j - i - 1] == '.';
  }

  /** The email check accepts exactly the strings the email expression matches. */
  lemma EmailCheckMatchesPattern(s: string)
    ensures IsValidEmail(s) <==> MatchesEmailPattern(s)
  {
    if IsValidEmail(s) {
      EmailCheckImpliesPattern(s);
    }
    if MatchesEmailPattern(s) {
      PatternImpliesEmailCheck(s);
    }
  }

  /** A dotted domain passes. */
  lemma DottedDomainAccepted()
    ensures IsValidEmail("a@b.co")
  {
    var good := "a@b.co";
    assert good[1] == '@' && good[3] == '.';
    assert good[..1] == "a" && good[2..3] == "b" && good[4..] == "co";
    PatternImpliesEmailCheck(good);
  }

  /** A domain that starts with its only dot fails. */
  lemma LeadingDotRejected()
    ensures !IsValidEmail("a@.co")
  {
    var early := "a@.co";
    assert IndexOf(early, '@') == Some(1);
    var t := early[2..];
    assert t == ".co";
    assert !HasInnerDot(t) by { assert t[1] != '.'; }
  }

  /** A domain that ends with its only dot fails. */
  lemma TrailingDotRejected()
    ensures !IsValidEmail("a@bco.")
  {
    var late := "a@bco.";
    assert IndexOf(late, '@') == Some(1);
    var t := late[2..];
    assert t == "bco.";
    assert !HasInnerDot(t) by { assert t[1] != '.' && t[2] != '.'; }
  }

  // ------------------------------------------------------------- password

  /** The class `[@$!%*?&]`. */
  predicate IsPasswordSpecial(c: char)
  {
    c == '@' || c == '$' || c == '!' || c == '%' || c == '*' || c == '?' || c == '&'
  }

  /** The class `[A-Za-z\d@$!%*?&]`. */
  predicate IsPasswordChar(c: char)
  {
    IsAsciiUpper(c) || IsAsciiLower(c) || IsAsciiDigit(c) || IsPasswordSpecial(c)
  }

  /**
    The password expression read literally: three look-aheads, each for one
    character of its class somewhere, and then at least eight characters of
    the allowed class filling the whole string.
   */
  ghost predicate MatchesPasswordPattern(s: string)
  {
    && |s| >= 8
    && (forall k :: 0 <= k < |s| ==> IsPasswordChar(s[k]))
    && (exists k :: 0 <= k < |s| && IsAsciiUpper(s[k]))
    && (exists k :: 0 <= k < |s| && IsAsciiDigit(s[k]))
    && (exists k :: 0 <= k < |s| && IsPasswordSpecial(s[k]))
  }

  /** What one pass over a password finds. */
  datatype PasswordScan = PasswordScan(allAllowed: bool, hasUpper: bool, hasDigit: bool, hasSpecial: bool)

  function ScanPassword(s: string): PasswordScan
    decreases |s|
  {
    if s == [] then PasswordScan(true, false, false, false)
    else
      var rest := ScanPassword(s[1..]);
      var c := s[0];
      PasswordScan(
        IsPasswordChar(c) && rest.allAllowed,
        IsAsciiUpper(c) || rest.hasUpper,
        IsAsciiDigit(c) || rest.hasDigit,
        IsPasswordSpecial(c) || rest.hasSpecial)
  }

  /** The password check: long enough and every flag of the scan raised. */
  predicate IsStrongPassword(s: string)
    ensures IsStrongPassword(s) ==> |s| >= 8 && forall k :: 0 <= k < |s| ==> !IsJsWhitespace(s[k])
  {
    ScanPasswordFlags(s);
    var scan := ScanPassword(s);
    |s| >= 8 && scan.allAllowed && scan.hasUpper && scan.hasDigit && scan.hasSpecial
  }

  /** Each flag of the scan reports the property of the whole string it is named for. */
  lemma {:induction false} ScanPasswordFlags(s: string)
    ensures ScanPassword(s).allAllowed <==> forall k :: 0 <= k < |s| ==> IsPasswordChar(s[k])
    ensures ScanPassword(s).hasUpper <==> exists k :: 0 <= k < |s| && IsAsciiUpper(s[k])
    ensures ScanPassword(s).hasDigit <==> exists k :: 0 <= k < |s| && IsAsciiDigit(s[k])
    ensures ScanPassword(s).hasSpecial <==> exists k :: 0 <= k < |s| && IsPasswordSpecial(s[k])
    decreases |s|
  {
    if s != [] {
      ScanPasswordFlags(s[1..]);
      assert forall k :: 1 <= k < |s| ==> s[k] == s[1..][k - 1];
      assert forall k :: 0 <= k < |s[1..]| ==> s[1..][k] == s[k + 1];
    }
  }

  /** The password check accepts exactly the strings the password expression matches. */
  lemma PasswordCheckMatchesPattern(s: string)
    ensures IsStrongPassword(s) <==> MatchesPasswordPattern(s)
  {
    ScanPasswordFlags(s);
  }

  /** No lowercase letter is required. */
  lemma UppercaseOnlyPasswordIsStrong()
    ensures IsStrongPassword("PASSWORD1!")
  {
    assert ScanPassword("1!") == PasswordScan(true, false, true, true);
    assert ScanPassword("D1!") == PasswordScan(true, true, true, true);
  }

  /** A space is not in the allowed class. */
  lemma PasswordWithSpaceIsWeak()
    ensures !IsStrongPassword("Pass word1!")
  {
    assert !ScanPassword(" word1!").allAllowed;
  }

  /** A special character is required, however long the password. */
  lemma PasswordWithoutSpecialIsWeak(s: string)
    requires forall k :: 0 <= k < |s| ==> !IsPasswordSpecial(s[k])
    ensures !IsStrongPassword(s)
  {
    ScanPasswordFlags(s);
  }

  // ------------------------------------------------------ phone and postal

  /** `^\d{10}$`: exactly ten ASCII digits. */
  predicate IsValidPhoneNumber(s: string)
    ensures IsValidPhoneNumber(s) ==> IsValidPostalCode(s)
  {
    |s| == 10 && AllDigits(s)
  }

  /** `^\d{4,10}$`: four to ten ASCII digits. */
  predicate IsValidPostalCode(s: string)
  {
    4 <= |s| <= 10 && AllDigits(s)
  }

  /**
    Both digit checks use ASCII digits only and fix the length: a phone
    number is also a postal code, and a postal code is a phone number
    exactly when it has ten digits.
   */
  lemma DigitChecks(s: string)
    ensures IsValidPhoneNumber(s) ==> IsValidPostalCode(s)
    ensures IsValidPostalCode(s) ==> (IsValidPhoneNumber(s) <==> |s| == 10)
    ensures (exists k :: 0 <= k < |s| && !IsAsciiDigit(s[k])) ==> !IsValidPhoneNumber(s) && !IsValidPostalCode(s)
  {
  }
}

=== FILE: search_bar.dfy ===
/**
  The hospital search box (components/searchbar.tsx): the effect that
  capitalises the query, the condition under which a debounced search is
  scheduled, and the state changes of `searchHospitals`.
 */
module SearchBar {
  import opened Common
  import opened Text

  /** `q.charAt(0).toUpperCase() + q.slice(1)`. */
  function Capitalize(q: string): (r: string)
    ensures |r| == |q|
    ensures q != [] ==> r[0] == ToUpperAscii(q[0])
    ensures forall k :: 1 <= k < |q| ==> r[k] == q[k]
  {
    if q == [] then [] else [ToUpperAscii(q[0])] + q[1..]
  }

  /** The empty query stays empty, and capitalising twice is capitalising once. */
  lemma CapitalizeIdempotent(q: string)
    ensures Capitalize("") == ""
    ensures Capitalize(Capitalize(q)) == Capitalize(q)
  {
  }

  /** `searchQuery.trim() !== ''`: the condition for scheduling a debounced search. */
  function SchedulesSearch(q: string): (b: bool)
    ensures b <==> exists k :: 0 <= k < |q| && !IsJsWhitespace(q[k])
  {
    Trim(q) != []
  }

  /**
    Capitalising does not change whether a search is scheduled: upper-casing
    a letter never makes or unmakes whitespace.
   */
  lemma CapitalizeKeepsSchedule(q: string)
    ensures SchedulesSearch(Capitalize(q)) == SchedulesSearch(q)
  {
    var c := Capitalize(q);
    if q != [] {
      assert IsJsWhitespace(c[0]) <==> IsJsWhitespace(q[0]);
      if exists k :: 0 <= k < |q| && !IsJsWhitespace(q[k]) {
        var k :| 0 <= k < |q| && !IsJsWhitespace(q[k]);
        assert !IsJsWhitespace(c[k]);
      }
      if exists k :: 0 <= k < |c| && !IsJsWhitespace(c[k]) {
        var k :| 0 <= k < |c| && !IsJsWhitespace(c[k]);
        assert !IsJsWhitespace(q[k]);
      }
    }
  }

  /** A search result; what the result list renders of it is not modelled. */
  datatype Hospital = Hospital(id: string, name: string)

  datatype SearchState = SearchState(query: string, hospitals: seq<Hospital>, loading: bool, error: string)

  /** How the GET ends: resolved with `response.data.data`, possibly absent, or threw. */
  datatype SearchReply = Found(data: Option<seq<Hospital>>) | Failed

  const FetchFailed: string := "Failed to fetch hospitals. Please try again."

  /** The state while the request is in flight: loading, with the error cleared. */
  function BeginSearch(s: SearchState): (r: SearchState)
    ensures r.loading && r.error == ""
    ensures r.query == s.query && r.hospitals == s.hospitals
  {
    s.(loading := true, error := "")
  }

  /**
    `searchHospitals`: the results replace the list (an absent list becomes
    the empty one); a failure sets the error and keeps the old results; in
    every case loading ends false.
   */
  function SearchHospitals(s: SearchState, reply: SearchReply): (r: SearchState)
    ensures !r.loading && r.query == s.query
    ensures reply.Found? ==> r.error == "" && r.hospitals == (if reply.data.Some? then reply.data.value else [])
    ensures reply.Failed? ==> r.error == FetchFailed && r.hospitals == s.hospitals
  {
    var busy := BeginSearch(s);
    var done := match reply
      case Found(data) => busy.(hospitals := if data.Some? then data.value else [])
      case Failed => busy.(error := FetchFailed);
    done.(loading := false)
  }

  /** The outcome of a search depends only on the reply, not on an earlier error or loading flag. */
  lemma SearchForgetsEarlierError(s: SearchState, reply: SearchReply, error: string, loading: bool)
    ensures SearchHospitals(s.(error := error, loading := loading), reply) == SearchHospitals(s, reply)
  {
  }
}

=== FILE: sessions.dfy ===
/**
  How a session passes from the screens that store a token to the
  navigation bars that read it: the OTP screen and the doctor sign-in write
  the very key the bars look up, so what they store decides whether the bar
  mounted next requests the profile.
 */
module Sessions {
  import opened Common
  import PatientOtp
  import DoctorSignin
  import NavBar

  /**
    After a verified OTP the patient bar requests the profile exactly when
    the stored token is nonempty; a reply without a token stores the text
    "undefined", which is nonempty and so still counts as a session.
   */
  lemma OtpTokenReachesPatientBar(
    screen: PatientOtp.OtpScreen, contactNumber: string, body: ReplyBody,
    nav: NavBar.NavState, reply: NavBar.ProfileReply)
    requires |screen.otp| >= PatientOtp.OtpLength && !IsErrorBody(body)
    ensures var after := PatientOtp.HandleSubmit(screen, contactNumber, Answered(body)).screen.storage;
      NavBar.FetchUserInfo(NavBar.PatientRole, nav.(storage := after), reply).requested
      <==> body.token != Some("")
  {
  }

  /** After a successful doctor sign-in the doctor bar requests the profile exactly when the stored token is nonempty. */
  lemma SigninTokenReachesDoctorBar(
    screen: DoctorSignin.SigninScreen, body: ReplyBody, nav: NavBar.NavState, reply: NavBar.ProfileReply)
    requires screen.email != "" && screen.password != "" && !IsErrorBody(body)
    ensures var after := DoctorSignin.HandleSignIn(screen, Answered(body)).screen.storage;
      NavBar.FetchUserInfo(NavBar.DoctorRole, nav.(storage := after), reply).requested
      <==> body.token != Some("")
  {
  }

  /** Logging out of the patient bar removes the key the OTP screen stored. */
  lemma LogoutRemovesStoredToken(screen: PatientOtp.OtpScreen, contactNumber: string, body: ReplyBody, nav: NavBar.NavState)
    requires |screen.otp| >= PatientOtp.OtpLength && !IsErrorBody(body)
    ensures var after := PatientOtp.HandleSubmit(screen, contactNumber, Answered(body)).screen.storage;
      && PatientTokenKey in after
      && PatientTokenKey !in NavBar.Logout(NavBar.PatientRole, nav.(storage := after)).storage
  {
  }

  /** Logging out of the doctor bar removes the key a successful doctor sign-in stored. */
  lemma LogoutRemovesSigninToken(screen: DoctorSignin.SigninScreen, body: ReplyBody, nav: NavBar.NavState)
    requires screen.email != "" && screen.password != "" && !IsErrorBody(body)
    ensures var after := DoctorSignin.HandleSignIn(screen, Answered(body)).screen.storage;
      && DoctorTokenKey in after
      && DoctorTokenKey !in NavBar.Logout(NavBar.DoctorRole, nav.(storage := after)).storage
  {
  }
}

=== FILE: signup_orders.dfy ===
/**
  How the check orders of the three sign-up forms differ, on inputs that
  fail two checks at once. The forms share the email, password, phone and
  postal-code predicates of the Patterns module, so only the order differs.
 */
module SignupOrders {
  import opened Common
  import opened JsNumber
  import opened Patterns
  import DoctorSignup
  import HospitalSignup
  import PatientSignup

  /**
    A weak password together with a bad phone number: the doctor form
    reports the phone number, the hospital form the password.
   */
  lemma PhoneBeforePasswordOnlyForDoctors(d: DoctorSignup.DoctorForm, h: HospitalSignup.HospitalForm)
    requires !DoctorSignup.HasEmptyField(d) && !HospitalSignup.HasEmptyField(h)
    requires d.email == h.email && d.password == h.password && d.contactNumber == h.contactNumber
    requires IsValidEmail(d.email) && !IsStrongPassword(d.password) && !IsValidPhoneNumber(d.contactNumber)
    ensures DoctorSignup.ValidateForm(d) == Some(InvalidContactNumber)
    ensures forall document :: HospitalSignup.ValidateForm(h, document) == Some(WeakPassword)
  {
  }

  /**
    A bad email together with a bad age: the doctor form reports the email,
    the patient form the age.
   */
  lemma AgeBeforeEmailOnlyForPatients(d: DoctorSignup.DoctorForm, p: PatientSignup.PatientForm)
    requires !DoctorSignup.HasEmptyField(d)
    requires p.firstName != "" && p.lastName != "" && p.age != "" && p.gender != ""
    requires p.email != "" && p.contactNumber != ""
    requires d.email == p.email && d.age == p.age
    requires !IsValidEmail(d.email) && !IsValidAge(d.age)
    ensures DoctorSignup.ValidateForm(d) == Some(DoctorSignup.InvalidEmail)
    ensures PatientSignup.ValidateForm(p) == Some(PatientSignup.InvalidAge)
  {
  }
}

=== FILE: text.dfy ===
/**
  Character classes and string helpers of JavaScript that the screens rely on:
  the `\s` and `\d` classes of regular expressions, `String.prototype.trim`
  and an ASCII `toUpperCase`; and `IndexOf`, a first-occurrence search of
  this model's own that the email scan and the decimal reader use.
 */
module Text {
  import opened Common

  /**
    Membership in JavaScript's `\s`: the ECMAScript WhiteSpace characters
    (tab, vertical tab, form feed, space, no-break space, the byte order mark
    and the other space separators) and LineTerminator characters (line feed,
    carriage return, line and paragraph separators). The same set is what
    `trim` and `Number()` strip.
   */
  predicate IsJsWhitespace(c: char)
  {
    var n := c as int;
    || n == 0x09 || n == 0x0A || n == 0x0B || n == 0x0C || n == 0x0D || n == 0x20
    || n == 0xA0 || n == 0x1680 || (0x2000 <= n <= 0x200A)
    || n == 0x2028 || n == 0x2029 || n == 0x202F || n == 0x205F || n == 0x3000 || n == 0xFEFF
  }

  /** JavaScript's `\d`: the ASCII digits only. */
  predicate IsAsciiDigit(c: char)
  {
    '0' <= c <= '9'
  }

  predicate IsAsciiUpper(c: char)
  {
    'A' <= c <= 'Z'
  }

  predicate IsAsciiLower(c: char)
  {
    'a' <= c <= 'z'
  }

  predicate AllDigits(s: string)
  {
    forall k :: 0 <= k < |s| ==> IsAsciiDigit(s[k])
  }

  predicate AllWhitespace(s: string)
  {
    forall k :: 0 <= k < |s| ==> IsJsWhitespace(s[k])
  }

  /** `toUpperCase` on one character, restricted to the ASCII letters. */
  function ToUpperAscii(c: char): (u: char)
    ensures IsAsciiLower(c) ==> IsAsciiUpper(u) && u as int == c as int - 32
    ensures !IsAsciiLower(c) ==> u == c
  {
    if IsAsciiLower(c) then (c as int - 32) as char else c
  }

  /** The position of the first occurrence of `c` in `s`, if any. */
  function IndexOf(s: string, c: char): (r: Option<nat>)
    ensures r.Some? ==> r.value < |s| && s[r.value] == c
    ensures r.Some? ==> forall k :: 0 <= k < r.value ==> s[k] != c
    ensures r.None? ==> forall k :: 0 <= k < |s| ==> s[k] != c
    decreases |s|
  {
    if s == [] then None
    else if s[0] == c then Some(0)
    else match IndexOf(s[1..], c)
      case None => None
      case Some(k) => Some(k + 1)
  }

  /** Length of the longest prefix of `s` made of whitespace. */
  function LeadingWhitespace(s: string): (n: nat)
    ensures n <= |s|
    ensures forall k :: 0 <= k < n ==> IsJsWhitespace(s[k])
    ensures n < |s| ==> !IsJsWhitespace(s[n])
    decreases |s|
  {
    if s != [] && IsJsWhitespace(s[0]) then 1 + LeadingWhitespace(s[1..]) else 0
  }

  /** Length of the longest suffix of `s` made of whitespace. */
  function TrailingWhitespace(s: string): (n: nat)
    ensures n <= |s|
    ensures forall k :: |s| - n <= k < |s| ==> IsJsWhitespace(s[k])
    ensures n < |s| ==> !IsJsWhitespace(s[|s| - n - 1])
    decreases |s|
  {
    if s != [] && IsJsWhitespace(s[|s| - 1]) then 1 + TrailingWhitespace(s[..|s| - 1]) else 0
  }

  /** `String.prototype.trim`: strips leading and trailing whitespace. */
  function Trim(s: string): (r: string)
    ensures |r| <= |s|
    ensures r == [] <==> AllWhitespace(s)
    ensures r != [] ==> !IsJsWhitespace(r[0]) && !IsJsWhitespace(r[|r| - 1])
  {
    var t := s[LeadingWhitespace(s)..];
    t[..|t| - TrailingWhitespace(t)]
  }

  /**
    Trimming removes whitespace at the ends and nothing else: the result is
    a slice of the input, and everything before and after it is whitespace.
   */
  lemma TrimRemovesOnlyEnds(s: string)
    ensures exists a, b :: 0 <= a <= b <= |s| && Trim(s) == s[a..b] && AllWhitespace(s[..a]) && AllWhitespace(s[b..])
  {
    var a := LeadingWhitespace(s);
    var t := s[a..];
    var n := TrailingWhitespace(t);
    var b := a + |t| - n;
    assert AllWhitespace(s[..a]) by {
      assert forall k :: 0 <= k < a ==> s[..a][k] == s[k];
    }
    assert AllWhitespace(s[b..]) by {
      assert forall k :: 0 <= k < |s[b..]| ==> s[b..][k] == t[|t| - n + k];
    }
    assert Trim(s) == s[a..b];
  }

  /** A string that neither starts nor ends with whitespace is its own trim. */
  lemma TrimUnpadded(s: string)
    requires s != [] ==> !IsJsWhitespace(s[0]) && !IsJsWhitespace(s[|s| - 1])
    ensures Trim(s) == s
  {
    assert LeadingWhitespace(s) == 0;
    assert TrailingWhitespace(s) == 0;
  }
}
